=== FILE: README.md ===
# Codebreaker clients — a Dafny model

This project models the sequential logic of the Codebreaker clients, a
code-guessing game played against a remote web service. Two clients are
covered:

- **the desktop client**: its service implementation (`CodebreakerServiceImpl`), its synchronous
  `GameViewModel` and its `MainController`;
- **the JavaFX client**: its asynchronous `GameViewModel`, its `MainController` and its
  `CodePointInfo` helper.

Modules, one per concern:

| module | file | what it holds |
|---|---|---|
| `Wrappers` | wrappers.dfy | `Option`, standing for a nullable reference |
| `JavaText` | javatext.dfy | Java strings as UTF-16 units; `codePoints()`, `appendCodePoint` and their round trips |
| `PropertyList` | property_list.dfy | the `\s*,\s*` tokenizer (`splitAsStream`) and its empty/blank filters, against a reference "fields between commas" definition |
| `Domain` | domain.dfy | the `Game` and `Guess` records |
| `Errors` | errors.dfy | exception classes and their subclassing, `CompletionException` wrapping, the status-to-exception maps |
| `CodePointMaps` | code_point_maps.dfy | `LinkedHashMap`, the code point × name × class zip, the palette |
| `Service` | service.dfy | validation, requests and futures of `CodebreakerServiceImpl` |
| `Observers` | observers.dfy | observer lists and one `forEach` broadcast |
| `Session` | session.dfy | the JavaFX `GameViewModel`: cached values, the `runLater` queue, issue and completion of each operation |
| `SyncViewModel` | sync_view_model.dfy | the desktop `GameViewModel` |
| `JavafxController` | javafx_controller.dfy | the JavaFX screen: the palette and guess row a game update rebuilds (also when that stops early), choosing, send enabling, submitting, mnemonic labels |
| `DesktopController` | desktop_controller.dfy | the desktop palette and game observer |

How the model represents the clients:

- **Strings.** A string is its sequence of UTF-16 units. `isValidGame` reads code points but
  `isValidGuess` reads `char`s, and the model keeps that difference.
- **Service calls.** An asynchronous call is split in two. The issuing function returns the
  request it makes. A completion function takes the service's outcome and applies the stages
  chained on the returned future.
- **Exceptions.** An exception thrown in a stage, or at once, is an `Attempt.Threw` or an error
  value. Java's `null` is `None`.
- **Dependent stages.** Such a stage sees a failure wrapped in a `CompletionException`.
  `exceptionally` attached directly to the service's future sees the failure unwrapped.

Behaviour of the program worth knowing before reading the contracts:

- A transport failure leaves the future pending for ever: `onFailure` is empty
  (CodebreakerServiceImpl.java:219-222).
- The desktop service raises `IllegalArgumentException`, `NoSuchElementException`,
  `IllegalStateException` and `RuntimeException`. It does not raise the client module's
  subclasses; `Errors.ClientRefinesStatusError` relates the two.
- The guess check counts UTF-16 units, not code points (`Service.SupplementaryGuessRefused`).
- Some operations throw synchronously: `deleteGame()` and `getGuess` when there is no current
  game, and both controllers' `handleGame` for a null game.
- `deleteGame(id)` hands the service's failure to `logError` with no CompletionException
  around it, because no stage sits between the service and `exceptionally`. `logError` then
  reports that failure's own cause when it has one. The other operations report the failure
  itself.
- The desktop `MainController` calls `registerGameObserver` and `startGame`, which the desktop
  `GameViewModel` does not declare. The model keeps the view model's three setters as written.

## Model

| member | source | states |
|---|---|---|
| JavaText.CodePoints | javafx/src/main/java/edu/cnm/deepdive/codebreaker/client/util/CodePointInfo.java:25-28 | the code points of a string are valid code points, never more than its units, and there is at least one exactly when the string is non-empty |
| JavaText.EncodeDecode | javafx/src/main/java/edu/cnm/deepdive/codebreaker/client/controller/MainController.java:218-228 | appending the code points `codePoints()` yields rebuilds the string unit for unit, lone surrogates included |
| JavaText.DecodeEncode | javafx/src/main/java/edu/cnm/deepdive/codebreaker/client/controller/MainController.java:108-118 | a string built with `appendCodePoint` from scalar values decodes back to exactly those values |
| JavaText.CodePointsOfSingle | javafx/src/main/java/edu/cnm/deepdive/codebreaker/client/controller/MainController.java:267-274 | the string of one code point decodes to that code point alone, surrogate code points included |
| PropertyList.RegexSplitIsPlain | javafx/src/main/java/edu/cnm/deepdive/codebreaker/client/util/CodePointInfo.java:13 | splitting on `\s*,\s*` (leftmost, greedy matches) gives the comma-separated fields with the regex whitespace next to each comma removed and whitespace away from commas kept |
| PropertyList.PlainHasNoComma | javafx/src/main/java/edu/cnm/deepdive/codebreaker/client/util/CodePointInfo.java:13 | no field of the split contains a comma |
| PropertyList.NonEmpty | javafx/src/main/java/edu/cnm/deepdive/codebreaker/client/util/CodePointInfo.java:62 | the empty-token filter keeps exactly the non-empty tokens and never returns more tokens than it gets |
| PropertyList.NonEmptyKeepsOrder | javafx/src/main/java/edu/cnm/deepdive/codebreaker/client/util/CodePointInfo.java:62 | the empty-token filter works token by token in order: one token is kept exactly when it is non-empty, and a concatenation filters to the concatenation of the filtered parts, so order and repeats survive |
| PropertyList.SplitToListSpec | javafx/src/main/java/edu/cnm/deepdive/codebreaker/client/util/CodePointInfo.java:59-64 | `splitToList` yields the comma-separated fields, trimmed next to commas, minus the empty ones; each token is non-empty and comma-free |
| PropertyList.NonBlank | src/main/java/edu/cnm/deepdive/codebreaker/controller/MainController.java:96 | the blank-token filter keeps exactly the tokens with a character that is not Java whitespace and never returns more tokens than it gets |
| PropertyList.NonBlankKeepsOrder | src/main/java/edu/cnm/deepdive/codebreaker/controller/MainController.java:96 | the blank-token filter works token by token in order: one token is kept exactly when it is not blank, and a concatenation filters to the concatenation of the filtered parts |
| PropertyList.BlankFilterRefinesEmptyFilter | src/main/java/edu/cnm/deepdive/codebreaker/controller/MainController.java:91-98 | dropping blank tokens also drops every empty token: the desktop filter removes everything the JavaFX filter removes, and more |
| CodePointMaps.Put | javafx/src/main/java/edu/cnm/deepdive/codebreaker/client/util/CodePointInfo.java:38-39 | `LinkedHashMap.put` stores the value; a new key goes last in iteration order, an existing key keeps its place |
| CodePointMaps.GetAfterPut | javafx/src/main/java/edu/cnm/deepdive/codebreaker/client/util/CodePointInfo.java:38-39 | after `put(k, v)`, `get(k)` is `v` and every other key reads as before |
| CodePointMaps.ZipLoop | javafx/src/main/java/edu/cnm/deepdive/codebreaker/client/util/CodePointInfo.java:33-40 | the three-iterator loop stops when any list is exhausted and produces the zip of the shortest common prefix |
| CodePointMaps.ZipSpec | javafx/src/main/java/edu/cnm/deepdive/codebreaker/client/util/CodePointInfo.java:33-40 | both maps list the paired code points in first-occurrence order; a repeated code point keeps the name and class of its last occurrence; an unpaired code point maps to null |
| CodePointMaps.GetName | javafx/src/main/java/edu/cnm/deepdive/codebreaker/client/util/CodePointInfo.java:47-49 | `getName` is non-null exactly for the code points in the name map |
| CodePointMaps.GetStyleClass | javafx/src/main/java/edu/cnm/deepdive/codebreaker/client/util/CodePointInfo.java:51-53 | `getStyleClass` is non-null exactly for the code points in the class map |
| CodePointMaps.LoadedMapsShape | javafx/src/main/java/edu/cnm/deepdive/codebreaker/client/util/CodePointInfo.java:25-40 | the two maps have the same keys, every key is a code point of the pool, and every name and class is a non-empty, comma-free token |
| CodePointMaps.BuiltMapsShape | src/main/java/edu/cnm/deepdive/codebreaker/controller/MainController.java:66-89 | the desktop maps have the same keys, drawn from the pool, and no name or class is blank |
| CodePointMaps.PaletteFrom | javafx/src/main/java/edu/cnm/deepdive/codebreaker/client/controller/MainController.java:178-187 | the palette holds the class-map entries in iteration order, each with the entry's code point, class, name and the text built from the name, up to the first entry that throws; that entry's exception ends the build and the items added before it stay; with no failure there is one item per entry |
| CodePointMaps.AlignedPalette | javafx/src/main/java/edu/cnm/deepdive/codebreaker/client/controller/MainController.java:202-216 | when both maps have the same keys and the text builder cannot fail, the palette is built with one item per entry |
| Errors.Wrap | javafx/src/main/java/edu/cnm/deepdive/codebreaker/client/viewmodel/GameViewModel.java:60-64 | a dependent stage sees a failure as a CompletionException |
| Errors.CauseOrSelfOfWrap | javafx/src/main/java/edu/cnm/deepdive/codebreaker/client/viewmodel/GameViewModel.java:204-209 | unwrapping one level in `logError` gives back the original failure |
| Errors.ReportedThroughChain | javafx/src/main/java/edu/cnm/deepdive/codebreaker/client/viewmodel/GameViewModel.java:60-64 | after one or more dependent stages a failure carries exactly one CompletionException layer, so `logError` reports the original failure; with no stage in between it reports the failure's own cause, or the failure when it has none |
| Errors.StatusError | src/main/java/edu/cnm/deepdive/codebreaker/service/CodebreakerServiceImpl.java:36-40 | 400, 404 and 409 map to IllegalArgument, NoSuchElement and IllegalState exceptions; every other status maps to RuntimeException |
| Errors.ClientStatusError | client/src/main/java/edu/cnm/deepdive/codebreaker/client/service/UnknownServiceException.java:18-23 | each status has its own client exception, in both directions: 400 exactly for InvalidPayloadException, 404 for ResourceNotFoundException, 409 for GameSolvedException, any other status for UnknownServiceException |
| Errors.ClientRefinesStatusError | client/src/main/java/edu/cnm/deepdive/codebreaker/client/service/GameSolvedException.java:18-23 | each client exception class is a subclass of the class the desktop service raises for the same status |
| Service.CheckGame | src/main/java/edu/cnm/deepdive/codebreaker/service/CodebreakerServiceImpl.java:102-112 | the game is accepted exactly when 0 < length <= 20 and every pool code point is non-zero and defined; an empty pool passes |
| Service.IndexOf | src/main/java/edu/cnm/deepdive/codebreaker/service/CodebreakerServiceImpl.java:119 | `indexOf` returns -1 exactly when the unit is absent, otherwise its first position |
| Service.IsValidGuessSpec | src/main/java/edu/cnm/deepdive/codebreaker/service/CodebreakerServiceImpl.java:114-122 | the guess is accepted exactly when its length in UTF-16 units is the game length and every unit occurs in the pool |
| Service.CheckGuess | src/main/java/edu/cnm/deepdive/codebreaker/service/CodebreakerServiceImpl.java:114-122 | the unit-by-unit scan accepts exactly the guesses `isValidGuess` accepts |
| Service.StartGame | src/main/java/edu/cnm/deepdive/codebreaker/service/CodebreakerServiceImpl.java:55-60 | an invalid game gets an already-failed IllegalArgumentException future and no request; a valid game gets exactly one start request and a pending future |
| Service.SubmitGuess | src/main/java/edu/cnm/deepdive/codebreaker/service/CodebreakerServiceImpl.java:84-89 | an invalid guess fails at once with no request; a valid one is sent once, keyed by the game's id |
| Service.SupplementaryGuessRefused | src/main/java/edu/cnm/deepdive/codebreaker/service/CodebreakerServiceImpl.java:102-122 | a game whose pool is one supplementary character is accepted, yet a guess of that character is refused because the length check counts UTF-16 units |
| Service.GetGame | src/main/java/edu/cnm/deepdive/codebreaker/service/CodebreakerServiceImpl.java:62-71 | no local check; exactly one request carrying the id unchanged |
| Service.Delete | src/main/java/edu/cnm/deepdive/codebreaker/service/CodebreakerServiceImpl.java:73-82 | no local check; exactly one delete request carrying the id unchanged |
| Service.GetGuess | src/main/java/edu/cnm/deepdive/codebreaker/service/CodebreakerServiceImpl.java:91-99 | no local check; exactly one request carrying both ids unchanged |
| Service.OnResponse | src/main/java/edu/cnm/deepdive/codebreaker/service/CodebreakerServiceImpl.java:207-217 | a 2xx response completes the future with the body; any other status fails it with the status's exception; a settled future stays as it is |
| Service.FirstResponseWins | src/main/java/edu/cnm/deepdive/codebreaker/service/CodebreakerServiceImpl.java:207-222 | a future keeps the first outcome it receives |
| Service.OnFailure | src/main/java/edu/cnm/deepdive/codebreaker/service/CodebreakerServiceImpl.java:219-222 | a transport failure leaves the future as it was |
| Service.TransportFailuresNeverSettle | src/main/java/edu/cnm/deepdive/codebreaker/service/CodebreakerServiceImpl.java:219-222 | a pending future that only meets transport failures stays pending for ever |
| Session.Initial | javafx/src/main/java/edu/cnm/deepdive/codebreaker/client/viewmodel/GameViewModel.java:31-37 | the new view model caches nothing and has nothing queued |
| Session.Store | javafx/src/main/java/edu/cnm/deepdive/codebreaker/client/viewmodel/GameViewModel.java:190-223 | a setter stores its value, leaves the other three cached values and the four observer lists alone, and queues exactly one notification carrying that value |
| Session.LogError | javafx/src/main/java/edu/cnm/deepdive/codebreaker/client/viewmodel/GameViewModel.java:204-209 | `logError` stores the throwable's cause if it has one, else the throwable itself, and queues one error notification; game, guess and solved do not change |
| Session.Deliver | javafx/src/main/java/edu/cnm/deepdive/codebreaker/client/viewmodel/GameViewModel.java:192-193 | the oldest queued notification leaves the queue and goes to the observers registered on its channel when it runs, in registration order, until one throws; that exception ends the lambda and the cached values are untouched |
| Session.SetThenDeliver | javafx/src/main/java/edu/cnm/deepdive/codebreaker/client/viewmodel/GameViewModel.java:190-195 | a value set while the queue is empty reaches exactly the observers of its kind, in registration order until one throws, and leaves the queue empty |
| Session.SetterKeepsConsistent | javafx/src/main/java/edu/cnm/deepdive/codebreaker/client/viewmodel/GameViewModel.java:190-223 | after any setter, the newest queued notification of each kind carries the cached value |
| Session.DeliverKeepsConsistent | javafx/src/main/java/edu/cnm/deepdive/codebreaker/client/viewmodel/GameViewModel.java:190-223 | running the oldest queued notification keeps that agreement |
| Session.RegisterGameObserver | javafx/src/main/java/edu/cnm/deepdive/codebreaker/client/viewmodel/GameViewModel.java:147-152 | the observer is appended, and called once at once with the cached game exactly when one is cached |
| Session.RegisterGuessObserver | javafx/src/main/java/edu/cnm/deepdive/codebreaker/client/viewmodel/GameViewModel.java:159-164 | the observer is appended, and called once at once with the cached guess exactly when one is cached |
| Session.RegisterSolvedObserver | javafx/src/main/java/edu/cnm/deepdive/codebreaker/client/viewmodel/GameViewModel.java:171-176 | the observer is appended, and called once at once with the cached solved flag exactly when one is cached |
| Session.RegisterErrorObserver | javafx/src/main/java/edu/cnm/deepdive/codebreaker/client/viewmodel/GameViewModel.java:183-188 | the observer is appended, and called once at once with the cached error exactly when one is cached |
| Session.StartGame | javafx/src/main/java/edu/cnm/deepdive/codebreaker/client/viewmodel/GameViewModel.java:56-59 | the service receives a new game with the given pool and length and no id |
| Session.GetGame | javafx/src/main/java/edu/cnm/deepdive/codebreaker/client/viewmodel/GameViewModel.java:72-74 | the service is asked for the game with the given id |
| Session.DeleteGameById | javafx/src/main/java/edu/cnm/deepdive/codebreaker/client/viewmodel/GameViewModel.java:85-87 | the service is asked to delete the game with the given id |
| Session.DeleteCurrentGame | javafx/src/main/java/edu/cnm/deepdive/codebreaker/client/viewmodel/GameViewModel.java:94-96 | the current game's id goes to the service; without a current game nothing is sent, because `game.getId()` throws |
| Session.SubmitGuess | javafx/src/main/java/edu/cnm/deepdive/codebreaker/client/viewmodel/GameViewModel.java:106-109 | a new guess with the given text is submitted against the current game |
| Session.GetGuess | javafx/src/main/java/edu/cnm/deepdive/codebreaker/client/viewmodel/GameViewModel.java:128-130 | the guess is requested under the current game's id; without a current game nothing is sent |
| Session.OnGameLoaded | javafx/src/main/java/edu/cnm/deepdive/codebreaker/client/viewmodel/GameViewModel.java:60-77 | on success game := result and solved := result.solved, queuing a game then a solved notification, with guess and error unchanged; a null game caches null and reports NullPointerException; a failure changes only the error; the four observer lists are unchanged |
| Session.OnGameDeletedById | javafx/src/main/java/edu/cnm/deepdive/codebreaker/client/viewmodel/GameViewModel.java:85-89 | success changes nothing and queues nothing; a failure reports its cause or itself, unwrapped by no stage; the four observer lists are unchanged |
| Session.OnCurrentGameDeleted | javafx/src/main/java/edu/cnm/deepdive/codebreaker/client/viewmodel/GameViewModel.java:94-99 | success sets game := null and queues one null game notification, with solved and guess untouched; a failure changes only the error; the four observer lists are unchanged |
| Session.OnGuessSubmitted | javafx/src/main/java/edu/cnm/deepdive/codebreaker/client/viewmodel/GameViewModel.java:106-121 | guess := response first; a solution of exactly TRUE issues `getGame` for the current game and appends nothing; otherwise the response goes to the end of the current game's guesses and the game is republished; a null response or null game reports NullPointerException; the four observer lists are unchanged |
| Session.OnGuessFetched | javafx/src/main/java/edu/cnm/deepdive/codebreaker/client/viewmodel/GameViewModel.java:128-133 | success sets guess := response and leaves the game untouched; a failure changes only the error; the four observer lists are unchanged |
| Session.ServiceFailureReportedAsIs | javafx/src/main/java/edu/cnm/deepdive/codebreaker/client/viewmodel/GameViewModel.java:204-209 | an exception raised by the service reaches the error observers as itself, whether or not a stage wrapped it |
| Session.CompletionsKeepConsistent | javafx/src/main/java/edu/cnm/deepdive/codebreaker/client/viewmodel/GameViewModel.java:56-133 | every completion leaves the newest queued notification of each kind carrying the cached value |
| SyncViewModel.Initial | src/main/java/edu/cnm/deepdive/codebreaker/viewmodel/GameViewModel.java:25-31 | the new view model has empty observer lists and caches nothing |
| SyncViewModel.SetGame | src/main/java/edu/cnm/deepdive/codebreaker/viewmodel/GameViewModel.java:33-39 | stores the game before any observer runs and changes no other field; calls the game observers with it in registration order, each at most once, stopping at the first that throws, whose exception leaves `setGame` |
| SyncViewModel.SetGuess | src/main/java/edu/cnm/deepdive/codebreaker/viewmodel/GameViewModel.java:41-47 | stores the guess and changes no other field; calls the guess observers with it in registration order until one throws, whose exception leaves `setGuess` |
| SyncViewModel.SetError | src/main/java/edu/cnm/deepdive/codebreaker/viewmodel/GameViewModel.java:49-55 | stores the error and changes no other field; calls the error observers with it in registration order until one throws, whose exception leaves `setError` |
| Observers.Broadcast | src/main/java/edu/cnm/deepdive/codebreaker/viewmodel/GameViewModel.java:36-38 | when every call returns, `forEach` makes one call per observer, in list order, each with the same value |
| Observers.BroadcastUntil | src/main/java/edu/cnm/deepdive/codebreaker/viewmodel/GameViewModel.java:36-38 | `forEach` calls the observers in list order with the same value; every call but the last returned, it stops at the first call that throws and passes that exception on, and with no call throwing it reaches every observer |
| Observers.BroadcastUntilReturning | src/main/java/edu/cnm/deepdive/codebreaker/viewmodel/GameViewModel.java:36-38 | when no observer throws, the stopping `forEach` makes exactly the calls of the all-returning broadcast and ends normally |
| Observers.ThrowingObserverCutsBroadcast | src/main/java/edu/cnm/deepdive/codebreaker/viewmodel/GameViewModel.java:36-38 | an observer at position `k` that throws ends the `forEach` with an exception, and no observer after position `k` is called |
| Observers.BroadcastAppend | javafx/src/main/java/edu/cnm/deepdive/codebreaker/client/viewmodel/GameViewModel.java:192-193 | a newly registered observer is called after all earlier ones |
| JavafxController.LastGuess | javafx/src/main/java/edu/cnm/deepdive/codebreaker/client/controller/MainController.java:218-228 | with no guesses, `length` zeros (NegativeArraySizeException for a negative length); otherwise exactly the code points of the newest guess's text, which rebuild that text |
| JavafxController.RestoredSlot | javafx/src/main/java/edu/cnm/deepdive/codebreaker/client/controller/MainController.java:276-289 | a slot starts filled with its last-guess code point exactly when that code point has a style class |
| JavafxController.HandleGame | javafx/src/main/java/edu/cnm/deepdive/codebreaker/client/controller/MainController.java:160-169 | the game is cached whatever follows; a null game throws NullPointerException with palette and row untouched; otherwise the palette is replaced by what its build added, a palette failure or NegativeArraySizeException leaves the row as it was, and the row then comes from rebuilding the guess; the call succeeds exactly when the palette builds and the last guess holds at least `length > 0` code points |
| JavafxController.BuildGuess | javafx/src/main/java/edu/cnm/deepdive/codebreaker/client/controller/MainController.java:230-247 | the new row succeeds exactly when `0 < length <= |last|`, with `length` toggles restored from the last guess, the first selected and send disabled exactly when a toggle is empty; otherwise IndexOutOfBoundsException with the toggles built before the failure, nothing selected and send left as it was |
| JavafxController.HandleGameFails | javafx/src/main/java/edu/cnm/deepdive/codebreaker/client/controller/MainController.java:218-247 | with a palette that builds and a positive length, the rebuild fails exactly when the last guess has fewer code points than the length, and then the row keeps one toggle per code point of the last guess, with nothing selected and send left as it was |
| JavafxController.ShortGuessStrandsRow | javafx/src/main/java/edu/cnm/deepdive/codebreaker/client/controller/MainController.java:230-252 | after a rebuild that stopped at a too-short last guess, the next palette choice throws NullPointerException |
| JavafxController.Choose | javafx/src/main/java/edu/cnm/deepdive/codebreaker/client/controller/MainController.java:249-264 | with no selected toggle the choice throws NullPointerException; otherwise the chosen code point goes into the selected slot only, the selection advances unless on the last slot, and send is disabled exactly when a slot is empty |
| JavafxController.ChooseAllFills | javafx/src/main/java/edu/cnm/deepdive/codebreaker/client/controller/MainController.java:249-264 | choosing k code points fills the next k slots with them, in order, and leaves the rest alone |
| JavafxController.FillRowEnablesSend | javafx/src/main/java/edu/cnm/deepdive/codebreaker/client/controller/MainController.java:194-200 | choosing one code point per slot from the first slot on fills every slot and enables send |
| JavafxController.Unboxed | javafx/src/main/java/edu/cnm/deepdive/codebreaker/client/controller/MainController.java:109-114 | the toggles' values come out in order exactly when every toggle holds a valid code point; otherwise the exception is that of the first toggle that fails |
| JavafxController.GuessText | javafx/src/main/java/edu/cnm/deepdive/codebreaker/client/controller/MainController.java:108-118 | the submission succeeds exactly when every slot holds a valid code point, and its text is those code points appended in order; otherwise the first failing slot in order decides: NullPointerException for an empty slot, IllegalArgumentException for an invalid code point |
| JavafxController.InvalidFirstSlotWins | javafx/src/main/java/edu/cnm/deepdive/codebreaker/client/controller/MainController.java:108-118 | an invalid code point in the first slot throws IllegalArgumentException whatever follows it, empty slots included |
| JavafxController.GuessTextRoundTrip | javafx/src/main/java/edu/cnm/deepdive/codebreaker/client/controller/MainController.java:108-118 | the submitted text decodes to the slots' code points when they are scalar values |
| JavafxController.FullRowSubmits | javafx/src/main/java/edu/cnm/deepdive/codebreaker/client/controller/MainController.java:108-118 | a row restored in full from styled, valid code points has no empty toggle, and submitting it sends those code points appended in order |
| JavafxController.RestoredRowResubmits | javafx/src/main/java/edu/cnm/deepdive/codebreaker/client/controller/MainController.java:218-241 | a last guess of `length` code points that all have style classes comes back as a full row with send enabled, and submitting it sends the same text |
| JavafxController.NewGameRowIsEmpty | javafx/src/main/java/edu/cnm/deepdive/codebreaker/client/controller/MainController.java:218-241 | a game without guesses gets all-empty slots and send disabled when code point 0 has no style class |
| JavafxController.MnemonicLabel | javafx/src/main/java/edu/cnm/deepdive/codebreaker/client/controller/MainController.java:267-274 | the label's code points are `_` followed by the name's first code point, or `_` alone for an empty name |
| JavafxController.BuildPalette | javafx/src/main/java/edu/cnm/deepdive/codebreaker/client/controller/MainController.java:178-187 | every palette item added shows the mnemonic label of its name; the build stops only at a code point with no name, with NullPointerException |
| JavafxController.LoadedPalette | javafx/src/main/java/edu/cnm/deepdive/codebreaker/client/controller/MainController.java:120-141 | for the loaded maps the palette always builds, one item per distinct paired code point in order, each label two code points long |
| DesktopController.FirstCodePointText | src/main/java/edu/cnm/deepdive/codebreaker/controller/MainController.java:133-137 | the item text is the name's first code point alone; an empty name throws IndexOutOfBoundsException |
| DesktopController.BuildPalette | src/main/java/edu/cnm/deepdive/codebreaker/controller/MainController.java:122-144 | each palette item added shows the first code point of its non-empty name; the build stops with NullPointerException or IndexOutOfBoundsException, keeping the items added before |
| DesktopController.BuiltPalette | src/main/java/edu/cnm/deepdive/codebreaker/controller/MainController.java:122-144 | for the maps `buildCodePointMaps` builds the palette always comes out, one item per class-map entry in insertion order, each text one code point |
| DesktopController.HandleGame | src/main/java/edu/cnm/deepdive/codebreaker/controller/MainController.java:149-152 | the latest game is cached, and a null game then throws NullPointerException |
| DesktopController.ControllerFollowsViewModel | src/main/java/edu/cnm/deepdive/codebreaker/controller/MainController.java:149-152 | with the controller at position `k` of the game observer list, every call `setGame` makes passes the stored game, which the controller caches; a null game makes the controller throw, ending the `forEach` so that no observer after position `k` is called |

## Left out

- I/O and wiring: Retrofit, OkHttp and Gson construction, properties and resource-bundle loading, singleton holders, FXML loading, tooltips, style-class list edits and focus requests. An API call is modelled as a request added to a list.
- Threads: `CompletableFuture` scheduling and `Platform.runLater` are an ordered queue of pending notifications. No interleaving of completions is modelled.
- `Character.isDefined` is a Unicode database lookup. It is a parameter `isDefined` of the validation.
- `shutdown`: the desktop service has no such method. The JavaFX view model only forwards it to a service that is not part of this model.
- The client module's service implementation is not part of this model. The JavaFX view model sees its results only as success or failure outcomes.
- Aliasing: the JavaFX view model appends a guess to the game object it shares with the observers. The model holds games as values, so the appended game is a new value that replaces the cached one.
- A null pool, guess text or guess list, and `Integer.parseInt` failures on the length property.
- The user deselecting a toggle by clicking it again: in the model a row loses its selection only when rebuilding it stops early (`JavafxController.BuildGuess`).
- Trailing empty strings that `splitAsStream` drops: both filters remove empty tokens anyway, so they make no difference to the lists.
- `GuessAdapter`, the entry points, the generated API bindings and the desktop `Main`, whose call does not match the service interface.
- DesktopController.HandleGame: `gameState.setText(game.toString())` is reduced to whether it throws, because the text of `toString` is not specified.

=== FILE: code_point_maps.dfy ===
/**
 * The code-point maps both clients build from their resources: the pool's code
 * points zipped with the tokenized `pool_names` and `pool_classes` lists into two
 * `LinkedHashMap`s (code point to name, code point to style class), as
 * `CodePointInfo`'s constructor, the JavaFX controller's `loadGameProperties`
 * and the desktop controller's `buildCodePointMaps` do.
 */
module CodePointMaps {
  import opened Wrappers
  import opened JavaText
  import opened PropertyList
  import opened Errors

  /** A `LinkedHashMap<Integer, V>`: the keys in insertion order and the value of each. */
  datatype OrderedMap<V> = OrderedMap(keys: seq<int>, values: map<int, V>)

  predicate Distinct(s: seq<int>) {
    forall a, b :: 0 <= a < b < |s| ==> s[a] != s[b]
  }

  /** The ordered key list and the map agree, and no key is listed twice. */
  ghost predicate Valid<V>(m: OrderedMap<V>) {
    Distinct(m.keys) && forall k :: k in m.values <==> k in m.keys
  }

  /** In a well-formed map, a key has a value exactly when it is listed. */
  lemma KeyListed<V>(m: OrderedMap<V>, k: int)
    requires Valid(m)
    ensures k in m.values <==> k in m.keys
  {
  }

  function Empty<V>(): (m: OrderedMap<V>)
    ensures Valid(m) && |m.keys| == 0
  {
    OrderedMap([], map[])
  }

  /**
   * `put`: the key gets the new value; a new key goes to the end of the
   * iteration order, a present key keeps its place.
   */
  function Put<V>(m: OrderedMap<V>, k: int, v: V): (r: OrderedMap<V>)
    requires Valid(m)
    ensures Valid(r)
    ensures r.values == m.values[k := v]
    ensures k in m.values ==> r.keys == m.keys
    ensures k !in m.values ==> r.keys == m.keys + [k]
  {
    if k in m.values then OrderedMap(m.keys, m.values[k := v])
    else OrderedMap(m.keys + [k], m.values[k := v])
  }

  /** `get`: the value of `k`, or null (`None`) when `k` is no key. */
  function Get<V>(m: OrderedMap<V>, k: int): (r: Option<V>)
    ensures r.Some? <==> k in m.values
    ensures r.Some? ==> r.value == m.values[k]
  {
    if k in m.values then Some(m.values[k]) else None
  }

  /** Reading back after `put`: the new value for that key, the old answer for every other. */
  lemma GetAfterPut<V>(m: OrderedMap<V>, k: int, v: V, q: int)
    requires Valid(m)
    ensures Get(Put(m, k, v), q) == if q == k then Some(v) else Get(m, q)
  {
  }

  // ---------------------------------------------------------------------------
  // The reference definition of the zip.

  /** The distinct values of `s[..n]`, each where it first occurs. */
  function FirstOccurrences(s: seq<int>, n: nat): (r: seq<int>)
    requires n <= |s|
    ensures Distinct(r)
    ensures forall k :: k in r <==> k in s[..n]
  {
    if n == 0 then []
    else
      var prev := FirstOccurrences(s, n - 1);
      assert s[..n] == s[..n - 1] + [s[n - 1]];
      if s[n - 1] in prev then prev else prev + [s[n - 1]]
  }

  /** The last position before `n` that holds `k`, or -1. */
  function LastIndex(s: seq<int>, k: int, n: nat): (r: int)
    requires n <= |s|
    ensures -1 <= r < n
    ensures r == -1 <==> k !in s[..n]
    ensures 0 <= r ==> s[r] == k
    ensures forall j :: r < j < n ==> s[j] != k
  {
    if n == 0 then -1
    else if s[n - 1] == k then n - 1
    else
      assert s[..n] == s[..n - 1] + [s[n - 1]];
      LastIndex(s, k, n - 1)
  }

  /** How many triples the zip pairs: the length of the shortest list. */
  function Paired<A, B, C>(a: seq<A>, b: seq<B>, c: seq<C>): (n: nat)
    ensures n <= |a| && n <= |b| && n <= |c|
    ensures n == |a| || n == |b| || n == |c|
  {
    if |a| <= |b| && |a| <= |c| then |a| else if |b| <= |c| then |b| else |c|
  }

  // ---------------------------------------------------------------------------
  // The zip.

  /** The two maps a client keeps. */
  datatype CodePointInfo = CodePointInfo(names: OrderedMap<Text>, classes: OrderedMap<Text>)

  /** The maps after the first `i` rounds of the zip loop. */
  function ZipPrefix(cps: seq<int>, names: seq<Text>, classes: seq<Text>, i: nat): (info: CodePointInfo)
    requires i <= |cps| && i <= |names| && i <= |classes|
    ensures Valid(info.names) && Valid(info.classes)
    ensures info.names.keys == info.classes.keys
  {
    if i == 0 then CodePointInfo(Empty(), Empty())
    else
      var prev := ZipPrefix(cps, names, classes, i - 1);
      CodePointInfo(Put(prev.names, cps[i - 1], names[i - 1]), Put(prev.classes, cps[i - 1], classes[i - 1]))
  }

  /** Both maps, built from the three lists in step until the shortest runs out. */
  function Zip(cps: seq<int>, names: seq<Text>, classes: seq<Text>): CodePointInfo {
    ZipPrefix(cps, names, classes, Paired(cps, names, classes))
  }

  /**
   * The source's loop over three iterators: it stops as soon as any of them is
   * exhausted and puts one code point into both maps per round.
   */
  method ZipLoop(cps: seq<int>, names: seq<Text>, classes: seq<Text>) returns (info: CodePointInfo)
    ensures info == Zip(cps, names, classes)
  {
    info := CodePointInfo(Empty(), Empty());
    var i := 0;
    while i < |cps| && i < |names| && i < |classes|
      invariant i <= |cps| && i <= |names| && i <= |classes|
      invariant info == ZipPrefix(cps, names, classes, i)
    {
      info := CodePointInfo(Put(info.names, cps[i], names[i]), Put(info.classes, cps[i], classes[i]));
      i := i + 1;
    }
  }

  /** The key order of both maps is the order in which the paired code points first occur. */
  lemma {:induction false} ZipPrefixKeys(cps: seq<int>, names: seq<Text>, classes: seq<Text>, i: nat)
    requires i <= |cps| && i <= |names| && i <= |classes|
    ensures ZipPrefix(cps, names, classes, i).names.keys == FirstOccurrences(cps, i)
    ensures ZipPrefix(cps, names, classes, i).classes.keys == FirstOccurrences(cps, i)
  {
    if i > 0 {
      ZipPrefixKeys(cps, names, classes, i - 1);
      var prev := ZipPrefix(cps, names, classes, i - 1);
      KeyListed(prev.names, cps[i - 1]);
      KeyListed(prev.classes, cps[i - 1]);
    }
  }

  /** Each paired code point maps to the name and class of its last occurrence; others map to null. */
  lemma {:induction false} ZipPrefixValues(cps: seq<int>, names: seq<Text>, classes: seq<Text>, i: nat, k: int)
    requires i <= |cps| && i <= |names| && i <= |classes|
    ensures var info, j := ZipPrefix(cps, names, classes, i), LastIndex(cps, k, i);
      && Get(info.names, k) == (if j < 0 then None else Some(names[j]))
      && Get(info.classes, k) == (if j < 0 then None else Some(classes[j]))
  {
    if i > 0 {
      ZipPrefixValues(cps, names, classes, i - 1, k);
    }
  }

  /**
   * `getName` and `getStyleClass` on the zipped maps: the name and class paired
   * with the last occurrence of `cp` among the first `Paired` code points, and
   * null for a code point that was not paired. Both maps list the same keys,
   * the distinct paired code points in order of first occurrence.
   */
  lemma ZipSpec(cps: seq<int>, names: seq<Text>, classes: seq<Text>, cp: int)
    ensures var info, n := Zip(cps, names, classes), Paired(cps, names, classes);
      && info.names.keys == info.classes.keys == FirstOccurrences(cps, n)
      && (cp !in cps[..n] ==> GetName(info, cp).None? && GetStyleClass(info, cp).None?)
      && (cp in cps[..n] ==>
            var j := LastIndex(cps, cp, n);
            && 0 <= j < n && cps[j] == cp
            && GetName(info, cp) == Some(names[j])
            && GetStyleClass(info, cp) == Some(classes[j]))
  {
    var n := Paired(cps, names, classes);
    ZipPrefixKeys(cps, names, classes, n);
    ZipPrefixValues(cps, names, classes, n, cp);
  }

  /** `CodePointInfo.getName`. */
  function GetName(info: CodePointInfo, cp: int): (r: Option<Text>)
    ensures r.Some? <==> cp in info.names.values
  {
    Get(info.names, cp)
  }

  /** `CodePointInfo.getStyleClass`. */
  function GetStyleClass(info: CodePointInfo, cp: int): (r: Option<Text>)
    ensures r.Some? <==> cp in info.classes.values
  {
    Get(info.classes, cp)
  }

  // ---------------------------------------------------------------------------
  // The two clients' maps.

  /** The JavaFX maps (`CodePointInfo`, `loadGameProperties`): empty tokens dropped. */
  function LoadCodePointInfo(pool: Text, poolNames: Text, poolClasses: Text): CodePointInfo {
    Zip(CodePoints(pool), SplitToList(poolNames), SplitToList(poolClasses))
  }

  /** The desktop maps (`buildCodePointMaps`): blank tokens dropped. */
  function BuildCodePointMaps(pool: Text, poolNames: Text, poolClasses: Text): CodePointInfo {
    Zip(CodePoints(pool), BuildPoolList(poolNames), BuildPoolList(poolClasses))
  }

  /**
   * Every key of the JavaFX maps is a code point of the pool, both maps have the
   * same keys, and every name and class is a non-empty token without a comma.
   */
  lemma LoadedMapsShape(pool: Text, poolNames: Text, poolClasses: Text, cp: int)
    ensures var info := LoadCodePointInfo(pool, poolNames, poolClasses);
      && info.names.keys == info.classes.keys
      && (cp in info.names.values ==> cp in CodePoints(pool))
      && (cp in info.names.values ==> |info.names.values[cp]| > 0 && NoComma(info.names.values[cp]))
      && (cp in info.classes.values ==> |info.classes.values[cp]| > 0 && NoComma(info.classes.values[cp]))
  {
    var cps, ns, cs := CodePoints(pool), SplitToList(poolNames), SplitToList(poolClasses);
    var n := Paired(cps, ns, cs);
    ZipSpec(cps, ns, cs, cp);
    SplitToListSpec(poolNames);
    SplitToListSpec(poolClasses);
    if cp in cps[..n] {
      var j := LastIndex(cps, cp, n);
      assert ns[j] in ns && cs[j] in cs;
    }
  }

  /** Every name and class of the desktop maps is a token that is not blank. */
  lemma BuiltMapsShape(pool: Text, poolNames: Text, poolClasses: Text, cp: int)
    ensures var info := BuildCodePointMaps(pool, poolNames, poolClasses);
      && info.names.keys == info.classes.keys
      && (cp in info.names.values ==> cp in CodePoints(pool))
      && (cp in info.names.values ==> !IsBlank(info.names.values[cp]))
      && (cp in info.classes.values ==> !IsBlank(info.classes.values[cp]))
  {
    var cps, ns, cs := CodePoints(pool), BuildPoolList(poolNames), BuildPoolList(poolClasses);
    var n := Paired(cps, ns, cs);
    ZipSpec(cps, ns, cs, cp);
    if cp in cps[..n] {
      var j := LastIndex(cps, cp, n);
      assert ns[j] in ns && cs[j] in cs;
    }
  }

  // ---------------------------------------------------------------------------
  // The palette.

  /** Both maps are well formed and list the same keys, as the zip leaves them. */
  ghost predicate Aligned(info: CodePointInfo) {
    Valid(info.names) && Valid(info.classes) && info.names.keys == info.classes.keys
  }

  lemma ZipAligned(cps: seq<int>, names: seq<Text>, classes: seq<Text>)
    ensures Aligned(Zip(cps, names, classes))
  {
  }

  /** One palette button: the code point it enters, its text, its tooltip (the name) and its style class. */
  datatype PaletteItem = PaletteItem(codePoint: int, text: Text, tooltip: Text, styleClass: Text)

  /** The palette entry for `k` can be built: `k` has a name, and the text built from that name does not throw. */
  predicate ItemBuilds(info: CodePointInfo, labelOf: Text -> Attempt<Text>, k: int) {
    GetName(info, k).Some? && labelOf(GetName(info, k).value).Done?
  }

  /**
   * Entry `j` (at or after `i`) is the first that throws, and it throws `kind`:
   * NullPointerException for a missing name, else what `labelOf` throws.
   */
  predicate FailsFirstAt(info: CodePointInfo, labelOf: Text -> Attempt<Text>, i: nat, j: int, kind: Kind) {
    && i <= j < |info.classes.keys|
    && (forall q :: i <= q < j ==> ItemBuilds(info, labelOf, info.classes.keys[q]))
    && !ItemBuilds(info, labelOf, info.classes.keys[j])
    && (GetName(info, info.classes.keys[j]).None? ==> kind == NullPointer)
    && (GetName(info, info.classes.keys[j]).Some? ==> labelOf(GetName(info, info.classes.keys[j]).value) == Threw(kind))
  }

  /**
   * The palette's children after `buildPalette`: the items added, in order, and
   * the exception that ended the stream, if one did. The items added before a
   * failing entry stay in the palette.
   */
  datatype Palette = Palette(items: seq<PaletteItem>, failure: Option<Kind>)

  /**
   * The buttons for the class map's entries from position `i` on, in the map's
   * iteration order: the tooltip is the code point's name (`getName`), the text
   * is `labelOf(name)`, the style class is the entry's value. A code point with no
   * name throws NullPointerException when its text is built; the first entry
   * that throws ends the stream with that exception.
   */
  function PaletteFrom(info: CodePointInfo, labelOf: Text -> Attempt<Text>, i: nat): (r: Palette)
    requires Valid(info.classes) && i <= |info.classes.keys|
    ensures r.failure.None? <==> forall j :: i <= j < |info.classes.keys| ==> ItemBuilds(info, labelOf, info.classes.keys[j])
    ensures r.failure.None? ==> |r.items| == |info.classes.keys| - i
    ensures r.failure.Some? ==> FailsFirstAt(info, labelOf, i, i + |r.items|, r.failure.value)
    ensures i + |r.items| <= |info.classes.keys|
    ensures forall j :: 0 <= j < |r.items| ==>
      var k := info.classes.keys[i + j];
      && r.items[j].codePoint == k
      && r.items[j].styleClass == info.classes.values[k]
      && GetName(info, k) == Some(r.items[j].tooltip)
      && labelOf(r.items[j].tooltip) == Done(r.items[j].text)
    decreases |info.classes.keys| - i
  {
    if i == |info.classes.keys| then Palette([], None)
    else
      var k := info.classes.keys[i];
      match GetName(info, k)
      case None => Palette([], Some(NullPointer))
      case Some(name) =>
        match labelOf(name)
        case Threw(e) => Palette([], Some(e))
        case Done(shown) =>
          var rest := PaletteFrom(info, labelOf, i + 1);
          Palette([PaletteItem(k, shown, name, info.classes.values[k])] + rest.items, rest.failure)
  }

  /** With aligned maps every code point has a name, so only the labelOf can make the palette throw. */
  lemma AlignedPalette(info: CodePointInfo, labelOf: Text -> Attempt<Text>)
    requires Aligned(info)
    requires forall name: Text :: labelOf(name).Done?
    ensures PaletteFrom(info, labelOf, 0).failure.None?
    ensures |PaletteFrom(info, labelOf, 0).items| == |info.classes.keys|
  {
    forall j | 0 <= j < |info.classes.keys| ensures ItemBuilds(info, labelOf, info.classes.keys[j]) {
      assert info.classes.keys[j] in info.names.keys;
    }
  }
}

=== FILE: desktop_controller.dfy ===
/**
 * The desktop client's `MainController`: its palette, whose items show the
 * first code point of each name (no mnemonic prefix), and the game observer
 * that caches the arriving game before showing it.
 */
module DesktopController {
  import opened Wrappers
  import opened JavaText
  import opened Domain
  import opened Errors
  import opened PropertyList
  import opened CodePointMaps
  import opened Observers
  import SyncViewModel

  /**
   * `new String(name.codePoints().limit(1).toArray(), 0, 1)`: the first code
   * point of the name as a string. For an empty name the array is empty, and
   * asking for one element of it throws IndexOutOfBoundsException.
   */
  function FirstCodePointText(name: Text): (r: Attempt<Text>)
    ensures r.Threw? <==> |name| == 0
    ensures r.Threw? ==> r.kind == IndexOutOfBounds
    ensures r.Done? ==> CodePoints(r.value) == [CodePoints(name)[0]]
  {
    if |name| == 0 then Threw(IndexOutOfBounds)
    else
      var cp := DecodeHead(name).0;
      CodePointsOfSingle(cp);
      Done(Encode(cp))
  }

  /**
   * The palette `connectToViewModel` builds: one item per entry of the class
   * map, in its order, until an entry throws.
   */
  function BuildPalette(info: CodePointInfo): (r: Palette)
    requires Valid(info.classes)
    ensures forall j :: 0 <= j < |r.items| ==>
      |r.items[j].tooltip| > 0 && CodePoints(r.items[j].text) == [CodePoints(r.items[j].tooltip)[0]]
    ensures r.failure.Some? ==> r.failure.value in {NullPointer, IndexOutOfBounds}
  {
    PaletteFrom(info, FirstCodePointText, 0)
  }

  /**
   * For the maps `buildCodePointMaps` builds, no name is blank, so no name is
   * empty and the palette always comes out: one item per distinct paired code
   * point, each showing exactly one code point, the first of its name.
   */
  lemma BuiltPalette(pool: Text, poolNames: Text, poolClasses: Text)
    ensures var info := BuildCodePointMaps(pool, poolNames, poolClasses);
      var r := BuildPalette(info);
      && r.failure.None? && |r.items| == |info.classes.keys|
      && forall j :: 0 <= j < |r.items| ==>
        && r.items[j].codePoint == info.classes.keys[j]
        && |CodePoints(r.items[j].text)| == 1
  {
    var info := BuildCodePointMaps(pool, poolNames, poolClasses);
    forall j | 0 <= j < |info.classes.keys| ensures ItemBuilds(info, FirstCodePointText, info.classes.keys[j]) {
      var k := info.classes.keys[j];
      assert k in info.names.keys;
      BuiltMapsShape(pool, poolNames, poolClasses, k);
      assert !IsBlank(info.names.values[k]);
    }
  }

  /**
   * `handleGame`: the game is cached first; showing it (`game.toString()`)
   * then throws NullPointerException when it is null.
   */
  function HandleGame(game: Option<Game>): (r: (Option<Game>, Option<Kind>))
    ensures r.0 == game
    ensures r.1.Some? <==> game.None?
    ensures r.1.Some? ==> r.1.value == NullPointer
  {
    (game, if game.None? then Some(NullPointer) else None)
  }

  /**
   * The desktop view model's game observer list holding this controller's
   * `handleGame` at position `k` (what `connectToViewModel` asks for with
   * `registerGameObserver`, which the view model does not declare): every call
   * `setGame` makes passes the game the view model has just stored, so the
   * controller caches that game. A null game makes the controller throw
   * NullPointerException, which ends the `forEach` and leaves `setGame`: no
   * observer after position `k` hears of it.
   */
  lemma ControllerFollowsViewModel(vm: SyncViewModel.SyncViewModel, g: Option<Game>,
                                   accept: Delivery<SyncViewModel.Update> -> Option<Kind>, k: nat)
    requires k < |vm.gameObservers|
    requires forall u :: accept(Delivery(vm.gameObservers[k], SyncViewModel.GameUpdate(u))) == HandleGame(u).1
    ensures var (after, b) := SyncViewModel.SetGame(vm, g, accept);
      forall i :: 0 <= i < |b.calls| ==>
        && b.calls[i].notification.GameUpdate?
        && HandleGame(b.calls[i].notification.game).0 == after.game
    ensures var (after, b) := SyncViewModel.SetGame(vm, g, accept);
      g.None? ==> b.thrown.Some? && |b.calls| <= k + 1
    ensures var (after, b) := SyncViewModel.SetGame(vm, g, accept);
      b.calls == Broadcast(vm.gameObservers, SyncViewModel.GameUpdate(g))[..|b.calls|]
  {
    var u := SyncViewModel.GameUpdate(g);
    var (after, b) := SyncViewModel.SetGame(vm, g, accept);
    assert ForEachOutcome(vm.gameObservers, u, accept, b);
    CallsArePrefix(vm.gameObservers, u, accept, b);
    if g.None? {
      assert accept(Delivery(vm.gameObservers[k], u)) == HandleGame(g).1;
      ThrowingObserverCutsBroadcast(vm.gameObservers, u, accept, k);
    }
  }
}

=== FILE: domain.dfy ===
/**
 * The game and guess records exchanged with the Codebreaker web service, reduced
 * to the properties the clients read and write. Java's nullable references
 * become `Option`s where the clients test or may meet null.
 */
module Domain {
  import opened Wrappers
  import opened JavaText

  /** A guess: its text and, once scored by the service, the match counts and solution flag. */
  datatype Guess = Guess(
    id: Option<Text>,
    text: Text,
    exactMatches: Option<int>,
    nearMatches: Option<int>,
    solution: Option<bool>)

  /** A game: the character pool, the code length, the solved flag and the guesses so far. */
  datatype Game = Game(
    id: Option<Text>,
    pool: Text,
    length: int,
    solved: Option<bool>,
    guesses: seq<Guess>)

  /** `new Game().pool(pool).length(length)`: a game to be started; the service fills in the rest. */
  function NewGame(pool: Text, length: int): (g: Game)
    ensures g.pool == pool && g.length == length
    ensures g.id.None? && g.solved.None? && g.guesses == []
  {
    Game(None, pool, length, None, [])
  }

  /** `new Guess().text(text)`: a guess to be submitted. */
  function NewGuess(text: Text): (g: Guess)
    ensures g.text == text
    ensures g.id.None? && g.exactMatches.None? && g.nearMatches.None? && g.solution.None?
  {
    Guess(None, text, None, None, None)
  }
}

=== FILE: errors.dfy ===
/**
 * The exceptions that travel through the clients' futures: the standard Java
 * classes the desktop service raises, the client module's own subclasses, and
 * the `CompletionException` that `CompletableFuture` wraps around a failure
 * when it passes it to a dependent stage.
 */
module Errors {
  import opened Wrappers

  /** The exception classes that occur, up to `RuntimeException`. */
  datatype Kind =
    | RuntimeKind
    | IllegalArgument
    | NoSuchElement
    | IllegalState
    | NullPointer
    | IndexOutOfBounds
    | NegativeArraySize
    | Completion
    | InvalidPayload
    | ResourceNotFound
    | GameSolved
    | UnknownService

  /** The direct superclass of each class; `RuntimeException` is the root here. */
  function Super(k: Kind): Option<Kind> {
    match k
    case RuntimeKind => None
    case InvalidPayload => Some(IllegalArgument)
    case ResourceNotFound => Some(NoSuchElement)
    case GameSolved => Some(IllegalState)
    case UnknownService => Some(IllegalState)
    case _ => Some(RuntimeKind)
  }

  function Depth(k: Kind): nat {
    match k
    case RuntimeKind => 0
    case InvalidPayload | ResourceNotFound | GameSolved | UnknownService => 2
    case _ => 1
  }

  /** `instanceof`: `k` is `s` or one of its subclasses. */
  predicate IsA(k: Kind, s: Kind)
    decreases Depth(k)
  {
    k == s || (Super(k).Some? && Depth(Super(k).value) < Depth(k) && IsA(Super(k).value, s))
  }

  /** A throwable: its class and its cause (`getCause()`, null when absent). */
  datatype Throwable = Throwable(kind: Kind, cause: Option<Throwable>)

  /** An exception built with its no-argument constructor: no cause. */
  function Raise(k: Kind): (t: Throwable)
    ensures t.kind == k && t.cause.None?
  {
    Throwable(k, None)
  }

  /**
   * What a dependent stage of a `CompletableFuture` completes with when its
   * source failed with `t`: `t` itself if it already is a `CompletionException`,
   * otherwise a `CompletionException` whose cause is `t`.
   */
  function Wrap(t: Throwable): (w: Throwable)
    ensures w.kind == Completion
  {
    if t.kind == Completion then t else Throwable(Completion, Some(t))
  }

  /** The throwable `logError` reports: the cause when there is one, else the throwable itself. */
  function CauseOrSelf(t: Throwable): (r: Throwable)
    ensures r == t || Some(r) == t.cause
    ensures t.cause.Some? ==> r < t
  {
    match t.cause
    case Some(c) => c
    case None => t
  }

  /** A computation that either returns a value or throws an exception of the given class. */
  datatype Attempt<T> = Done(value: T) | Threw(kind: Kind)

  /** Unwrapping a wrapped failure gives back the original failure. */
  lemma CauseOrSelfOfWrap(t: Throwable)
    requires t.kind != Completion
    ensures CauseOrSelf(Wrap(t)) == t
  {
  }

  /** Wrapping twice is wrapping once: a chain of stages adds one layer only. */
  lemma WrapIdempotent(t: Throwable)
    ensures Wrap(Wrap(t)) == Wrap(t)
  {
  }

  /** The failure seen after `n` dependent stages. */
  function WrapN(t: Throwable, n: nat): Throwable {
    if n == 0 then t else Wrap(WrapN(t, n - 1))
  }

  /**
   * Every error a stage chain reports through `logError` is the source failure,
   * whatever the chain's length: the stages add one wrapping layer only.
   */
  lemma {:induction false} ReportedThroughChain(t: Throwable, stages: nat)
    requires t.kind != Completion
    ensures stages > 0 ==> WrapN(t, stages) == Wrap(t)
    ensures CauseOrSelf(WrapN(t, stages)) == (if stages == 0 then CauseOrSelf(t) else t)
  {
    if stages > 1 {
      ReportedThroughChain(t, stages - 1);
      WrapIdempotent(t);
    }
  }

  /**
   * The desktop service's `CODE_THROWABLE_SUPPLIERS` with its default: the
   * exception class a non-successful HTTP status turns into.
   */
  function StatusError(code: int): (k: Kind)
    ensures k == IllegalArgument <==> code == 400
    ensures k == NoSuchElement <==> code == 404
    ensures k == IllegalState <==> code == 409
    ensures k == RuntimeKind <==> code !in {400, 404, 409}
  {
    if code == 400 then IllegalArgument
    else if code == 404 then NoSuchElement
    else if code == 409 then IllegalState
    else RuntimeKind
  }

  /** The status each client exception class is documented to stand for. */
  function ClientStatusError(code: int): (k: Kind)
    ensures k == InvalidPayload <==> code == 400
    ensures k == ResourceNotFound <==> code == 404
    ensures k == GameSolved <==> code == 409
    ensures k == UnknownService <==> code !in {400, 404, 409}
  {
    if code == 400 then InvalidPayload
    else if code == 404 then ResourceNotFound
    else if code == 409 then GameSolved
    else UnknownService
  }

  /** Each client exception is an instance of the class the desktop service raises for the same status. */
  lemma ClientRefinesStatusError(code: int)
    ensures IsA(ClientStatusError(code), StatusError(code))
    ensures IsA(ClientStatusError(code), RuntimeKind)
  {
  }
}

=== FILE: javafx_controller.dfy ===
/**
 * The JavaFX client's `MainController`, without the scene graph: the row of
 * guess slots it rebuilds whenever a game arrives, the palette of code points,
 * what choosing a palette item does to the slots, whether the send button is
 * enabled, and the text it submits.
 */
module JavafxController {
  import opened Wrappers
  import opened JavaText
  import opened Domain
  import opened Errors
  import opened CodePointMaps

  /** The mnemonic prefix `_` in front of each palette item's text. */
  const MnemonicPrefix: Unit := 0x5F

  /**
   * The guess row: the code point each toggle of the current toggle group holds
   * as its user data (`None` for a toggle with none), the position of the
   * group's selected toggle (`None` while none is selected), and whether the
   * send button is disabled.
   */
  datatype Row = Row(slots: seq<Option<int>>, selected: Option<nat>, sendDisabled: bool)

  /** What the window holds: the cached game, the palette's items and the guess row. */
  datatype Screen = Screen(game: Option<Game>, palette: seq<PaletteItem>, row: Row)

  /** The screen after an observer call, and the exception that call ended with, if any. */
  datatype Handled = Handled(screen: Screen, thrown: Option<Kind>)

  predicate AnyEmpty(slots: seq<Option<int>>) {
    exists i :: 0 <= i < |slots| && slots[i].None?
  }

  /** The selection, when there is one, is a toggle of the row. */
  predicate InRow(e: Row) {
    e.selected.Some? ==> e.selected.value < |e.slots|
  }

  /** A toggle is selected, and send is disabled exactly while some toggle holds no code point. */
  predicate ValidRow(e: Row) {
    e.selected.Some? && e.selected.value < |e.slots| && (e.sendDisabled <==> AnyEmpty(e.slots))
  }

  // ---------------------------------------------------------------------------
  // Rebuilding the row when a game arrives.

  /**
   * `getLastGuess`: the code points of the newest guess, or, with no guesses,
   * `length` zeros (`new int[length]`, which throws for a negative length).
   */
  function LastGuess(game: Game): (r: Attempt<seq<int>>)
    ensures |game.guesses| == 0 && game.length < 0 ==> r == Threw(NegativeArraySize)
    ensures |game.guesses| == 0 && game.length >= 0 ==>
      r.Done? && |r.value| == game.length && forall i :: 0 <= i < |r.value| ==> r.value[i] == 0
    ensures |game.guesses| > 0 ==> r == Done(CodePoints(game.guesses[|game.guesses| - 1].text))
    ensures |game.guesses| > 0 ==>
      r.Done? && AllCodePoints(r.value) && FromCodePoints(r.value) == game.guesses[|game.guesses| - 1].text
  {
    if |game.guesses| == 0 then
      if game.length < 0 then Threw(NegativeArraySize) else Done(seq(game.length, _ => 0))
    else
      var text := game.guesses[|game.guesses| - 1].text;
      EncodeDecode(text);
      Done(CodePoints(text))
  }

  /**
   * `buildGuessItem`: the toggle at position `i` holds `lastGuess[i]` when that
   * code point has a style class, and nothing otherwise.
   */
  function RestoredSlot(info: CodePointInfo, cp: int): (s: Option<int>)
    ensures s.Some? <==> GetStyleClass(info, cp).Some?
    ensures s.Some? ==> s.value == cp
  {
    if GetStyleClass(info, cp).Some? then Some(cp) else None
  }

  /** The toggles, from the first on, each restored from the same position of `last`. */
  predicate RestoredFrom(slots: seq<Option<int>>, info: CodePointInfo, last: seq<int>) {
    |slots| <= |last| && forall i :: 0 <= i < |slots| ==> slots[i] == RestoredSlot(info, last[i])
  }

  /**
   * `buildGuess` once `getLastGuess` has returned `last`: `initializeGuess`
   * replaces the toggle group by a new one with nothing selected and adds the
   * toggles for positions `0, 1, ...` below `length`; reading `last` past its
   * end throws IndexOutOfBoundsException with the toggles before it already
   * added. `selectGuessItem(0)` then throws IndexOutOfBoundsException when the
   * group is empty. Only when both succeed does `updateSend` run; otherwise the
   * send button keeps its state.
   */
  function BuildGuess(row: Row, length: int, last: seq<int>, info: CodePointInfo): (r: (Row, Option<Kind>))
    ensures r.1.None? <==> 0 < length <= |last|
    ensures RestoredFrom(r.0.slots, info, last)
    ensures r.1.None? ==> ValidRow(r.0) && r.0.selected == Some(0) && |r.0.slots| == length
    ensures r.1.Some? ==> r.1.value == IndexOutOfBounds
    ensures r.1.Some? ==> r.0.selected.None? && r.0.sendDisabled == row.sendDisabled
    ensures r.1.Some? ==> |r.0.slots| == if length <= 0 then 0 else |last|
  {
    var wanted := if length < 0 then 0 else length;
    var built := if |last| < wanted then |last| else wanted;
    var slots := seq(built, i requires 0 <= i < built => RestoredSlot(info, last[i]));
    if built < wanted || wanted == 0 then (Row(slots, None, row.sendDisabled), Some(IndexOutOfBounds))
    else (Row(slots, Some(0), AnyEmpty(slots)), None)
  }

  /**
   * `handleGame`: cache the game, then refill the guess history (which throws
   * NullPointerException for a null game), rebuild the palette, and rebuild the
   * guess row from the last guess. Each step that throws ends the call, leaving
   * what the earlier steps did in place.
   */
  function HandleGame(s: Screen, game: Option<Game>, info: CodePointInfo): (r: Handled)
    requires Valid(info.classes)
    ensures r.screen.game == game
    ensures game.None? ==> r.thrown == Some(NullPointer) && r.screen.palette == s.palette && r.screen.row == s.row
    ensures game.Some? ==> r.screen.palette == BuildPalette(info).items
    ensures game.Some? && BuildPalette(info).failure.Some? ==>
      r.thrown == BuildPalette(info).failure && r.screen.row == s.row
    ensures game.Some? && BuildPalette(info).failure.None? && LastGuess(game.value).Threw? ==>
      r.thrown == Some(NegativeArraySize) && r.screen.row == s.row
    ensures game.Some? && BuildPalette(info).failure.None? && LastGuess(game.value).Done? ==>
      (r.screen.row, r.thrown) == BuildGuess(s.row, game.value.length, LastGuess(game.value).value, info)
    ensures r.thrown.None? <==>
      && game.Some? && BuildPalette(info).failure.None? && LastGuess(game.value).Done?
      && 0 < game.value.length <= |LastGuess(game.value).value|
  {
    match game
    case None => Handled(s.(game := None), Some(NullPointer))
    case Some(g) =>
      var palette := BuildPalette(info);
      var shown := Screen(game, palette.items, s.row);
      if palette.failure.Some? then Handled(shown, palette.failure)
      else
        match LastGuess(g)
        case Threw(k) => Handled(shown, Some(k))
        case Done(last) =>
          var (row, thrown) := BuildGuess(s.row, g.length, last, info);
          Handled(shown.(row := row), thrown)
  }

  /**
   * With a palette that builds and a positive length, the row comes back
   * exactly when the last guess is long enough; when it is too short the row
   * keeps only the toggles built before the read past its end, nothing is
   * selected and the send button is left as it was.
   */
  lemma HandleGameFails(s: Screen, g: Game, info: CodePointInfo)
    requires Valid(info.classes) && BuildPalette(info).failure.None? && g.length > 0
    ensures var r := HandleGame(s, Some(g), info);
      r.thrown.Some? <==> |g.guesses| > 0 && |CodePoints(g.guesses[|g.guesses| - 1].text)| < g.length
    ensures var r := HandleGame(s, Some(g), info);
      r.thrown.Some? ==>
        && r.thrown == Some(IndexOutOfBounds)
        && |r.screen.row.slots| == |CodePoints(g.guesses[|g.guesses| - 1].text)|
        && r.screen.row.selected.None?
        && r.screen.row.sendDisabled == s.row.sendDisabled
  {
  }

  /**
   * After a rebuild that stopped at a too-short last guess, no toggle is
   * selected, so the next palette choice throws NullPointerException.
   */
  lemma ShortGuessStrandsRow(s: Screen, g: Game, info: CodePointInfo, cp: int)
    requires Valid(info.classes) && BuildPalette(info).failure.None?
    requires |g.guesses| > 0 && |CodePoints(g.guesses[|g.guesses| - 1].text)| < g.length
    ensures InRow(HandleGame(s, Some(g), info).screen.row)
    ensures Choose(HandleGame(s, Some(g), info).screen.row, cp) == Threw(NullPointer)
  {
    HandleGameFails(s, g, info);
  }

  // ---------------------------------------------------------------------------
  // Choosing from the palette.

  /**
   * `handlePaletteItemSelection`: with no selected toggle, setting its user data
   * throws NullPointerException. Otherwise the selected toggle takes the chosen
   * code point, the selection moves to the next toggle unless it is on the last
   * one, and send is re-evaluated.
   */
  function Choose(e: Row, cp: int): (r: Attempt<Row>)
    requires InRow(e)
    ensures r.Threw? <==> e.selected.None?
    ensures r.Threw? ==> r.kind == NullPointer
    ensures r.Done? ==> InRow(r.value) && r.value.selected.Some? && |r.value.slots| == |e.slots|
    ensures r.Done? ==> r.value.slots[e.selected.value] == Some(cp)
    ensures r.Done? ==> forall i :: 0 <= i < |e.slots| && i != e.selected.value ==> r.value.slots[i] == e.slots[i]
    ensures r.Done? ==>
      r.value.selected == Some(if e.selected.value + 1 < |e.slots| then e.selected.value + 1 else e.selected.value)
    ensures r.Done? ==> (r.value.sendDisabled <==> AnyEmpty(r.value.slots))
  {
    match e.selected
    case None => Threw(NullPointer)
    case Some(at) =>
      var slots := e.slots[at := Some(cp)];
      var next := if at < |e.slots| - 1 then at + 1 else at;
      Done(Row(slots, Some(next), AnyEmpty(slots)))
  }

  /** Choosing each of `cps` in turn from a row with a selected toggle; no choice throws. */
  function ChooseAll(e: Row, cps: seq<int>): (r: Row)
    requires ValidRow(e)
    ensures ValidRow(r) && |r.slots| == |e.slots|
    decreases |cps|
  {
    if |cps| == 0 then e else ChooseAll(Choose(e, cps[0]).value, cps[1..])
  }

  /**
   * Choosing `k` code points starting at the selected toggle fills the next `k`
   * toggles with them, in order, leaves the others alone, and moves the
   * selection `k` places on.
   */
  lemma {:induction false} ChooseAllFills(e: Row, cps: seq<int>)
    requires ValidRow(e) && e.selected.value + |cps| <= |e.slots|
    ensures var r := ChooseAll(e, cps);
      && (forall i :: 0 <= i < |cps| ==> r.slots[e.selected.value + i] == Some(cps[i]))
      && (forall i :: 0 <= i < |e.slots| && !(e.selected.value <= i < e.selected.value + |cps|) ==> r.slots[i] == e.slots[i])
      && r.selected == Some(if e.selected.value + |cps| < |e.slots| then e.selected.value + |cps| else |e.slots| - 1)
    decreases |cps|
  {
    if |cps| > 0 {
      var e1 := Choose(e, cps[0]).value;
      if |cps| > 1 {
        ChooseAllFills(e1, cps[1..]);
        var r := ChooseAll(e1, cps[1..]);
        forall i | 0 <= i < |cps| ensures r.slots[e.selected.value + i] == Some(cps[i]) {
          if i > 0 {
            assert cps[1..][i - 1] == cps[i];
          }
        }
      }
    }
  }

  /** Choosing one code point per toggle from the first toggle on fills the row and enables send. */
  lemma FillRowEnablesSend(e: Row, cps: seq<int>)
    requires ValidRow(e) && e.selected == Some(0) && |cps| == |e.slots|
    ensures var r := ChooseAll(e, cps);
      && !r.sendDisabled
      && forall i :: 0 <= i < |cps| ==> r.slots[i] == Some(cps[i])
  {
    ChooseAllFills(e, cps);
    var r := ChooseAll(e, cps);
    forall i | 0 <= i < |cps| ensures r.slots[i] == Some(cps[i]) {
      assert r.slots[e.selected.value + i] == Some(cps[i]);
    }
  }

  // ---------------------------------------------------------------------------
  // Submitting.

  /** The code points the toggles hold, when every toggle holds one. */
  function Values(slots: seq<Option<int>>): (r: seq<int>)
    requires !AnyEmpty(slots)
    ensures |r| == |slots| && forall i :: 0 <= i < |r| ==> slots[i] == Some(r[i])
  {
    seq(|slots|, i requires 0 <= i < |slots| => slots[i].value)
  }

  /**
   * Toggle `j` (at or after `i`) is the first whose value cannot be appended,
   * and appending it throws `kind`: NullPointerException when unboxing an empty
   * toggle's user data, IllegalArgumentException for an invalid code point.
   */
  predicate FirstBadSlot(slots: seq<Option<int>>, i: nat, j: int, kind: Kind) {
    && i <= j < |slots|
    && (forall q :: i <= q < j ==> slots[q].Some? && IsCodePoint(slots[q].value))
    && (slots[j].None? ==> kind == NullPointer)
    && (slots[j].Some? ==> !IsCodePoint(slots[j].value) && kind == IllegalArgument)
  }

  /** The toggles' values from position `i` on, unboxed one at a time in order until one cannot be appended. */
  function Unboxed(slots: seq<Option<int>>, i: nat): (r: Attempt<seq<int>>)
    requires i <= |slots|
    ensures r.Done? <==> forall j :: i <= j < |slots| ==> slots[j].Some? && IsCodePoint(slots[j].value)
    ensures r.Done? ==> |r.value| == |slots| - i && forall j :: 0 <= j < |r.value| ==> slots[i + j] == Some(r.value[j])
    ensures r.Threw? ==> exists j :: FirstBadSlot(slots, i, j, r.kind)
    decreases |slots| - i
  {
    if i == |slots| then Done([])
    else
      match slots[i]
      case None =>
        assert FirstBadSlot(slots, i, i, NullPointer);
        Threw(NullPointer)
      case Some(cp) =>
        if !IsCodePoint(cp) then
          assert FirstBadSlot(slots, i, i, IllegalArgument);
          Threw(IllegalArgument)
        else
          match Unboxed(slots, i + 1)
          case Threw(e) =>
            var j :| FirstBadSlot(slots, i + 1, j, e);
            assert FirstBadSlot(slots, i, j, e);
            Threw(e)
          case Done(rest) => Done([cp] + rest)
  }

  /**
   * `submitGuess`: the toggles' code points appended in order to a
   * `StringBuilder`. The first toggle whose value cannot be appended decides the
   * exception: NullPointerException for an empty one, IllegalArgumentException
   * for an invalid code point.
   */
  function GuessText(slots: seq<Option<int>>): (r: Attempt<Text>)
    ensures r.Done? <==> !AnyEmpty(slots) && AllCodePoints(Values(slots))
    ensures r.Threw? ==> exists j :: FirstBadSlot(slots, 0, j, r.kind)
    ensures r.Done? ==> r.value == FromCodePoints(Values(slots))
    ensures r.Done? ==> |slots| <= |r.value| <= 2 * |slots|
  {
    match Unboxed(slots, 0)
    case Threw(k) => Threw(k)
    case Done(cps) =>
      assert cps == Values(slots);
      Done(FromCodePoints(cps))
  }

  /** An invalid code point in the first toggle throws IllegalArgumentException, whatever follows it. */
  lemma InvalidFirstSlotWins(slots: seq<Option<int>>)
    requires |slots| > 0 && slots[0].Some? && !IsCodePoint(slots[0].value)
    ensures GuessText(slots) == Threw(IllegalArgument)
  {
    var j :| FirstBadSlot(slots, 0, j, GuessText(slots).kind);
  }

  /** The submitted text decodes to the chosen code points when they are all scalar values. */
  lemma GuessTextRoundTrip(slots: seq<Option<int>>)
    requires !AnyEmpty(slots) && AllScalars(Values(slots))
    ensures GuessText(slots).Done? && CodePoints(GuessText(slots).value) == Values(slots)
  {
    DecodeEncode(Values(slots));
  }

  /**
   * A row restored in full from code points that all have a style class holds
   * every one of them, so send is enabled and the submitted text is those code
   * points appended in order.
   */
  lemma FullRowSubmits(slots: seq<Option<int>>, info: CodePointInfo, last: seq<int>)
    requires RestoredFrom(slots, info, last) && |slots| == |last| && AllCodePoints(last)
    requires forall i :: 0 <= i < |last| ==> GetStyleClass(info, last[i]).Some?
    ensures !AnyEmpty(slots)
    ensures GuessText(slots) == Done(FromCodePoints(last))
  {
    forall i | 0 <= i < |slots| ensures slots[i] == Some(last[i]) {
      assert slots[i] == RestoredSlot(info, last[i]);
    }
    assert Values(slots) == last;
  }

  /**
   * A game whose last guess has `length` code points, each with a style class,
   * gets a full row back with send enabled, and sending it submits the last
   * guess's text again, unit for unit.
   */
  lemma RestoredRowResubmits(s: Screen, g: Game, info: CodePointInfo)
    requires Valid(info.classes) && BuildPalette(info).failure.None?
    requires |g.guesses| > 0 && g.length > 0
    requires var cps := CodePoints(g.guesses[|g.guesses| - 1].text);
      |cps| == g.length && forall i :: 0 <= i < |cps| ==> GetStyleClass(info, cps[i]).Some?
    ensures HandleGame(s, Some(g), info).thrown.None?
    ensures !HandleGame(s, Some(g), info).screen.row.sendDisabled
    ensures GuessText(HandleGame(s, Some(g), info).screen.row.slots) == Done(g.guesses[|g.guesses| - 1].text)
  {
    var text := g.guesses[|g.guesses| - 1].text;
    var last := LastGuess(g).value;
    assert last == CodePoints(text);
    var r := HandleGame(s, Some(g), info);
    assert (r.screen.row, r.thrown) == BuildGuess(s.row, g.length, last, info);
    FullRowSubmits(r.screen.row.slots, info, last);
    EncodeDecode(text);
  }

  /** A new game (no guesses) whose code point 0 has no style class gets an empty row: send is disabled. */
  lemma NewGameRowIsEmpty(s: Screen, g: Game, info: CodePointInfo)
    requires Valid(info.classes) && BuildPalette(info).failure.None?
    requires |g.guesses| == 0 && g.length > 0 && GetStyleClass(info, 0).None?
    ensures HandleGame(s, Some(g), info).thrown.None?
    ensures var e := HandleGame(s, Some(g), info).screen.row;
      e.sendDisabled && forall i :: 0 <= i < |e.slots| ==> e.slots[i].None?
  {
    var e := HandleGame(s, Some(g), info).screen.row;
    assert e.slots[0].None?;
  }

  // ---------------------------------------------------------------------------
  // The palette.

  /**
   * `buildSingleCharacterMnemonicLabel`: the prefix `_` followed by the first
   * code point of the name (nothing more for an empty name).
   */
  function MnemonicLabel(name: Text): (r: Text)
    ensures CodePoints(r) == [MnemonicPrefix as int] + CodePoints(name)[..if |name| == 0 then 0 else 1]
  {
    if |name| == 0 then
      assert CodePoints([MnemonicPrefix]) == [MnemonicPrefix as int];
      [MnemonicPrefix]
    else
      var cp := DecodeHead(name).0;
      CodePointsOfSingle(cp);
      assert DecodeHead([MnemonicPrefix] + Encode(cp)).1 == 1;
      assert ([MnemonicPrefix] + Encode(cp))[1..] == Encode(cp);
      [MnemonicPrefix] + Encode(cp)
  }

  /** The palette items' text builder: the mnemonic label, which never throws. */
  function MnemonicLabelOf(name: Text): (r: Attempt<Text>)
    ensures r == Done(MnemonicLabel(name))
  {
    Done(MnemonicLabel(name))
  }

  /**
   * `buildPalette`: one item per entry of the class map, in its order, labelled
   * with a mnemonic. The label never throws, so only a code point with no name
   * stops it, with NullPointerException.
   */
  function BuildPalette(info: CodePointInfo): (r: Palette)
    requires Valid(info.classes)
    ensures forall j :: 0 <= j < |r.items| ==> r.items[j].text == MnemonicLabel(r.items[j].tooltip)
    ensures r.failure.Some? ==> r.failure.value == NullPointer
  {
    PaletteFrom(info, MnemonicLabelOf, 0)
  }

  /**
   * For the maps `loadGameProperties` builds, the palette always comes out: one
   * item per distinct paired code point, in first-occurrence order, each showing
   * `_` and the first code point of its (non-empty) name.
   */
  lemma LoadedPalette(pool: Text, poolNames: Text, poolClasses: Text)
    ensures var info := LoadCodePointInfo(pool, poolNames, poolClasses);
      var r := BuildPalette(info);
      && r.failure.None? && |r.items| == |info.classes.keys|
      && forall j :: 0 <= j < |r.items| ==>
        && r.items[j].codePoint == info.classes.keys[j]
        && |CodePoints(r.items[j].text)| == 2
  {
    var info := LoadCodePointInfo(pool, poolNames, poolClasses);
    var r := BuildPalette(info);
    AlignedPalette(info, MnemonicLabelOf);
    forall j | 0 <= j < |r.items| ensures |CodePoints(r.items[j].text)| == 2 {
      var k := info.classes.keys[j];
      assert k in info.names.values;
      LoadedMapsShape(pool, poolNames, poolClasses, k);
    }
  }
}

=== FILE: javatext.dfy ===
/**
 * Java strings as sequences of UTF-16 code units, and the conversions between
 * units and code points that `String.codePoints()`, `StringBuilder.appendCodePoint`
 * and `new String(int[], int, int)` perform.
 */
module JavaText {

  /** One UTF-16 code unit: a Java `char`. */
  type Unit = u: int | 0 <= u < 0x1_0000

  /** A Java `String` as its UTF-16 units. */
  type Text = seq<Unit>

  const MaxCodePoint: int := 0x10_FFFF

  predicate IsHighSurrogate(u: int) { 0xD800 <= u <= 0xDBFF }

  predicate IsLowSurrogate(u: int) { 0xDC00 <= u <= 0xDFFF }

  /** A value `Character.isValidCodePoint` accepts. */
  predicate IsCodePoint(cp: int) { 0 <= cp <= MaxCodePoint }

  /** A code point that is not a surrogate: a Unicode scalar value. */
  predicate IsScalar(cp: int) {
    IsCodePoint(cp) && !IsHighSurrogate(cp) && !IsLowSurrogate(cp)
  }

  predicate AllCodePoints(cps: seq<int>) {
    forall i :: 0 <= i < |cps| ==> IsCodePoint(cps[i])
  }

  predicate AllScalars(cps: seq<int>) {
    forall i :: 0 <= i < |cps| ==> IsScalar(cps[i])
  }

  /**
   * The code point that starts `s` and the number of units it occupies, as
   * `Character.codePointAt` reads it: a high surrogate followed by a low one
   * combine, every other unit (a lone surrogate included) stands for itself.
   */
  function DecodeHead(s: seq<Unit>): (r: (int, nat))
    requires |s| > 0
    ensures r.1 == 1 || r.1 == 2
    ensures r.1 <= |s|
    ensures IsCodePoint(r.0)
    ensures r.1 == 2 <==> IsHighSurrogate(s[0]) && |s| >= 2 && IsLowSurrogate(s[1])
    ensures r.1 == 1 ==> r.0 == s[0] as int
    ensures r.1 == 2 ==> 0x1_0000 <= r.0
  {
    if |s| >= 2 && IsHighSurrogate(s[0]) && IsLowSurrogate(s[1]) then
      ((s[0] as int - 0xD800) * 0x400 + (s[1] as int - 0xDC00) + 0x1_0000, 2)
    else
      (s[0] as int, 1)
  }

  /** `String.codePoints()`: the code points of `s`, in order. */
  function CodePoints(s: seq<Unit>): (r: seq<int>)
    ensures AllCodePoints(r)
    ensures |r| <= |s|
    ensures |s| > 0 <==> |r| > 0
    decreases |s|
  {
    if |s| == 0 then []
    else
      var (cp, n) := DecodeHead(s);
      [cp] + CodePoints(s[n..])
  }

  /** The UTF-16 units of one code point, as `Character.toChars` produces them. */
  function Encode(cp: int): (r: seq<Unit>)
    requires IsCodePoint(cp)
    ensures 1 <= |r| <= 2
    ensures |r| == 1 <==> cp < 0x1_0000
  {
    if cp < 0x1_0000 then [cp as Unit]
    else
      var v := cp - 0x1_0000;
      [(0xD800 + v / 0x400) as Unit, (0xDC00 + v % 0x400) as Unit]
  }

  /** The string built by appending each code point in turn (`StringBuilder.appendCodePoint`). */
  function FromCodePoints(cps: seq<int>): (r: seq<Unit>)
    requires AllCodePoints(cps)
    ensures |cps| <= |r| <= 2 * |cps|
  {
    if |cps| == 0 then [] else Encode(cps[0]) + FromCodePoints(cps[1..])
  }

  /** Decoding the units of one supplementary code point gives it back. */
  lemma DecodeEncodeSupplementary(cp: int, rest: seq<Unit>)
    requires IsCodePoint(cp) && 0x1_0000 <= cp
    ensures DecodeHead(Encode(cp) + rest) == (cp, 2)
  {
    var v := cp - 0x1_0000;
    var hi, lo := v / 0x400, v % 0x400;
    assert v == hi * 0x400 + lo;
    assert 0 <= hi < 0x400;
    var s := Encode(cp) + rest;
    assert s[0] == 0xD800 + hi && s[1] == 0xDC00 + lo;
  }

  /** The head of an encoded code point decodes to that code point when nothing can pair with it. */
  lemma DecodeEncodeHead(cp: int, rest: seq<Unit>)
    requires IsCodePoint(cp)
    requires cp < 0x1_0000 ==> !IsHighSurrogate(cp) || |rest| == 0 || !IsLowSurrogate(rest[0])
    ensures DecodeHead(Encode(cp) + rest) == (cp, |Encode(cp)|)
  {
    if 0x1_0000 <= cp {
      DecodeEncodeSupplementary(cp, rest);
    }
  }

  /** A surrogate pair decodes to the code point whose encoding is that same pair. */
  lemma EncodePair(s: seq<Unit>)
    requires |s| >= 2 && IsHighSurrogate(s[0]) && IsLowSurrogate(s[1])
    ensures Encode(DecodeHead(s).0) == s[..2]
  {
    var hi, lo := s[0] as int - 0xD800, s[1] as int - 0xDC00;
    var v := DecodeHead(s).0 - 0x1_0000;
    assert v == hi * 0x400 + lo && 0 <= lo < 0x400;
    assert v / 0x400 == hi && v % 0x400 == lo;
  }

  /** Building from a code point followed by others starts with that code point's units. */
  lemma FromCodePointsCons(cp: int, rest: seq<int>)
    requires IsCodePoint(cp) && AllCodePoints(rest)
    ensures FromCodePoints([cp] + rest) == Encode(cp) + FromCodePoints(rest)
  {
    assert ([cp] + rest)[1..] == rest;
  }

  /** The first code point of `s` encodes back to the units it was read from. */
  lemma HeadEncodes(s: seq<Unit>)
    requires |s| > 0
    ensures Encode(DecodeHead(s).0) == s[..DecodeHead(s).1]
  {
    if DecodeHead(s).1 == 2 {
      EncodePair(s);
    }
  }

  /** Appending the code points of `s` one by one rebuilds `s` unit for unit. */
  lemma {:induction false} EncodeDecode(s: seq<Unit>)
    ensures FromCodePoints(CodePoints(s)) == s
    decreases |s|
  {
    if |s| > 0 {
      var (cp, n) := DecodeHead(s);
      var rest := CodePoints(s[n..]);
      calc {
        FromCodePoints(CodePoints(s));
        FromCodePoints([cp] + rest);
        { FromCodePointsCons(cp, rest); }
        Encode(cp) + FromCodePoints(rest);
        { HeadEncodes(s); EncodeDecode(s[n..]); }
        s[..n] + s[n..];
        { assert s == s[..n] + s[n..]; }
        s;
      }
    }
  }

  /** Decoding a string built from scalar values gives those values back. */
  lemma {:induction false} DecodeEncode(cps: seq<int>)
    requires AllScalars(cps)
    ensures CodePoints(FromCodePoints(cps)) == cps
    decreases |cps|
  {
    if |cps| > 0 {
      var e := Encode(cps[0]);
      var rest := FromCodePoints(cps[1..]);
      DecodeEncodeHead(cps[0], rest);
      assert FromCodePoints(cps) == e + rest;
      assert (e + rest)[|e|..] == rest;
      DecodeEncode(cps[1..]);
    }
  }

  /** The units of a single code point decode to that code point alone. */
  lemma CodePointsOfSingle(cp: int)
    requires IsCodePoint(cp)
    ensures CodePoints(Encode(cp)) == [cp]
  {
    DecodeEncodeHead(cp, []);
    assert Encode(cp) + [] == Encode(cp);
  }
}

=== FILE: observers.dfy ===
/**
 * Observer lists as both view models keep them: `List<Consumer<T>>` in
 * registration order, and the calls one `forEach` over such a list makes.
 */
module Observers {
  import opened Wrappers
  import opened Errors

  /** An observer, identified by the order in which it was created. */
  type ObserverId = nat

  /** One `consumer.accept(value)` call. */
  datatype Delivery<N> = Delivery(observer: ObserverId, notification: N)

  /**
   * `observers.forEach(consumer -> consumer.accept(n))` when every call returns:
   * one call per observer, in list order.
   */
  function Broadcast<N>(observers: seq<ObserverId>, n: N): (r: seq<Delivery<N>>)
    ensures |r| == |observers|
    ensures forall i :: 0 <= i < |r| ==> r[i].observer == observers[i] && r[i].notification == n
  {
    if |observers| == 0 then []
    else [Delivery(observers[0], n)] + Broadcast(observers[1..], n)
  }

  /** Broadcasting to a longer list first reaches the old observers, then the new one. */
  lemma BroadcastAppend<N>(observers: seq<ObserverId>, o: ObserverId, n: N)
    ensures Broadcast(observers + [o], n) == Broadcast(observers, n) + [Delivery(o, n)]
  {
    var r, s := Broadcast(observers + [o], n), Broadcast(observers, n) + [Delivery(o, n)];
    assert |r| == |s|;
    forall i | 0 <= i < |r| ensures r[i] == s[i] {
      if i < |observers| {
        assert (observers + [o])[i] == observers[i];
      }
    }
  }

  /** The calls one `forEach` made, and the exception that ended it, if one did. */
  datatype Broadcasted<N> = Broadcasted(calls: seq<Delivery<N>>, thrown: Option<Kind>)

  /**
   * `b` is what `observers.forEach(consumer -> consumer.accept(n))` does when
   * `accept` tells how each call ends (`None` when it returns, `Some(k)` when it
   * throws `k`): the observers are called in list order, every call but the
   * last returned, and the `forEach` stops at the first call that throws,
   * passing that exception on. With no call throwing, every observer is called.
   */
  predicate ForEachOutcome<N(==)>(observers: seq<ObserverId>, n: N, accept: Delivery<N> -> Option<Kind>, b: Broadcasted<N>) {
    && |b.calls| <= |observers|
    && (forall i :: 0 <= i < |b.calls| ==> b.calls[i] == Delivery(observers[i], n))
    && (forall i :: 0 <= i < |b.calls| - 1 ==> accept(b.calls[i]).None?)
    && (b.thrown.None? <==> forall i :: 0 <= i < |observers| ==> accept(Delivery(observers[i], n)).None?)
    && (b.thrown.None? ==> |b.calls| == |observers|)
    && (b.thrown.Some? ==> |b.calls| > 0 && accept(b.calls[|b.calls| - 1]) == b.thrown)
  }

  /** One `forEach` over the list, stopping at the first observer that throws. */
  function BroadcastUntil<N(==)>(observers: seq<ObserverId>, n: N, accept: Delivery<N> -> Option<Kind>): (b: Broadcasted<N>)
    ensures ForEachOutcome(observers, n, accept, b)
  {
    if |observers| == 0 then Broadcasted([], None)
    else
      var d := Delivery(observers[0], n);
      if accept(d).Some? then Broadcasted([d], accept(d))
      else
        var rest := BroadcastUntil(observers[1..], n, accept);
        Broadcasted([d] + rest.calls, rest.thrown)
  }

  /** When no observer throws, the `forEach` makes exactly the calls of `Broadcast` and ends normally. */
  lemma BroadcastUntilReturning<N>(observers: seq<ObserverId>, n: N, accept: Delivery<N> -> Option<Kind>)
    requires forall i :: 0 <= i < |observers| ==> accept(Delivery(observers[i], n)).None?
    ensures BroadcastUntil(observers, n, accept) == Broadcasted(Broadcast(observers, n), None)
  {
  }

  /**
   * An observer that throws for `n` and sits at position `k` ends the `forEach`
   * there or earlier: no observer after it is called.
   */
  lemma ThrowingObserverCutsBroadcast<N>(observers: seq<ObserverId>, n: N, accept: Delivery<N> -> Option<Kind>, k: nat)
    requires k < |observers| && accept(Delivery(observers[k], n)).Some?
    ensures BroadcastUntil(observers, n, accept).thrown.Some?
    ensures |BroadcastUntil(observers, n, accept).calls| <= k + 1
  {
  }

  /** The calls a stopping `forEach` makes are the start of the full broadcast. */
  lemma CallsArePrefix<N>(observers: seq<ObserverId>, n: N, accept: Delivery<N> -> Option<Kind>, b: Broadcasted<N>)
    requires ForEachOutcome(observers, n, accept, b)
    ensures b.calls == Broadcast(observers, n)[..|b.calls|]
  {
  }
}

=== FILE: property_list.dfy ===
/**
 * The comma-separated property lists of the game resources (`pool_names`,
 * `pool_classes`): `Pattern.compile("\\s*,\\s*").splitAsStream(joined)` followed
 * by a filter, modelled on UTF-16 units. `RegexSplit` follows the matcher
 * (leftmost match, greedy `\s*` on both sides of the comma); `Plain` is the
 * plain reading of the same list (the text between commas, with the whitespace
 * that touches a comma removed), and `RegexSplitIsPlain` shows they agree.
 * Positions are indices into the whole text, as a `Matcher` keeps them.
 */
module PropertyList {
  import opened Wrappers
  import opened JavaText

  const Comma: Unit := 0x2C

  /** `\s` of `java.util.regex` without UNICODE_CHARACTER_CLASS: `[ \t\n\x0B\f\r]`. */
  predicate IsRegexSpace(u: Unit) {
    u == 0x20 || 0x09 <= u <= 0x0D
  }

  /**
   * `Character.isWhitespace` on a UTF-16 unit: the space, line and paragraph
   * separators of Unicode except the no-break spaces U+00A0, U+2007 and U+202F,
   * plus U+0009..U+000D and U+001C..U+001F. No surrogate and no supplementary
   * code point is whitespace, so testing units is the same as testing code points.
   */
  predicate IsJavaWhitespace(u: Unit) {
    || 0x09 <= u <= 0x0D
    || 0x1C <= u <= 0x1F
    || u == 0x20
    || u == 0x1680
    || 0x2000 <= u <= 0x2006
    || 0x2008 <= u <= 0x200A
    || u == 0x2028
    || u == 0x2029
    || u == 0x205F
    || u == 0x3000
  }

  /** `String.isBlank`: empty or whitespace only. */
  predicate IsBlank(s: seq<Unit>) {
    forall i :: 0 <= i < |s| ==> IsJavaWhitespace(s[i])
  }

  predicate NoComma(s: seq<Unit>) {
    forall i :: 0 <= i < |s| ==> s[i] != Comma
  }

  predicate AllNoComma(ts: seq<seq<Unit>>) {
    forall k :: 0 <= k < |ts| ==> NoComma(ts[k])
  }

  // ---------------------------------------------------------------------------
  // The matcher.

  /** The end of the run of `\s` units that starts at `i`. */
  function SpaceEnd(t: seq<Unit>, i: nat): (j: nat)
    requires i <= |t|
    ensures i <= j <= |t|
    decreases |t| - i
  {
    if i < |t| && IsRegexSpace(t[i]) then SpaceEnd(t, i + 1) else i
  }

  /** The end of a match of `\s*,\s*` that starts at `i`, if one does. */
  function MatchAt(t: seq<Unit>, i: nat): (r: Option<nat>)
    requires i <= |t|
    ensures r.Some? ==> i < r.value <= |t|
  {
    var k := SpaceEnd(t, i);
    if k < |t| && t[k] == Comma then Some(SpaceEnd(t, k + 1)) else None
  }

  /** A matched region `[start, end)` of the text. */
  datatype Span = Span(start: nat, end: nat)

  /** `Matcher.find` from position `i`: the leftmost match that starts at `i` or later. */
  function FindFrom(t: seq<Unit>, i: nat): (r: Option<Span>)
    requires i <= |t|
    ensures r.Some? ==> i <= r.value.start < r.value.end <= |t|
    decreases |t| - i
  {
    match MatchAt(t, i)
    case Some(e) => Some(Span(i, e))
    case None => if i == |t| then None else FindFrom(t, i + 1)
  }

  /** The tokens of the text from position `i` on: the text before each match, then the rest. */
  function SplitFrom(t: seq<Unit>, i: nat): (r: seq<seq<Unit>>)
    requires i <= |t|
    ensures |r| > 0
    decreases |t| - i
  {
    match FindFrom(t, i)
    case None => [t[i..]]
    case Some(sp) => [t[i..sp.start]] + SplitFrom(t, sp.end)
  }

  /**
   * `Pattern.splitAsStream`. An input without a match is its own single token,
   * the empty input included. Trailing empty tokens are kept here; both callers
   * filter out every empty token, so the difference never shows.
   */
  function RegexSplit(t: seq<Unit>): (r: seq<seq<Unit>>)
    ensures |r| > 0
  {
    SplitFrom(t, 0)
  }

  /** `Predicate.not(String::isEmpty)`. */
  predicate IsNonEmpty(t: seq<Unit>) {
    |t| > 0
  }

  /** `Predicate.not(String::isBlank)`. */
  predicate IsNotBlank(t: seq<Unit>) {
    !IsBlank(t)
  }

  /** A stream `filter` over tokens: those passing `keep`, in order. */
  function Filter(ts: seq<seq<Unit>>, keep: seq<Unit> -> bool): seq<seq<Unit>> {
    if |ts| == 0 then []
    else (if keep(ts[0]) then [ts[0]] else []) + Filter(ts[1..], keep)
  }

  /** Filtering a concatenation filters each part. */
  lemma {:induction false} FilterAppend(a: seq<seq<Unit>>, b: seq<seq<Unit>>, keep: seq<Unit> -> bool)
    ensures Filter(a + b, keep) == Filter(a, keep) + Filter(b, keep)
    decreases |a|
  {
    if |a| == 0 {
      assert a + b == b;
    } else {
      var ab := a + b;
      assert ab[0] == a[0] && ab[1..] == a[1..] + b;
      FilterAppend(a[1..], b, keep);
    }
  }

  /** `filter(Predicate.not(String::isEmpty))`. */
  function NonEmpty(ts: seq<seq<Unit>>): (r: seq<seq<Unit>>)
    ensures forall x :: x in r <==> x in ts && |x| > 0
    ensures |r| <= |ts|
  {
    if |ts| == 0 then []
    else (if |ts[0]| > 0 then [ts[0]] else []) + NonEmpty(ts[1..])
  }

  /** `filter(Predicate.not(String::isBlank))`. */
  function NonBlank(ts: seq<seq<Unit>>): (r: seq<seq<Unit>>)
    ensures forall x :: x in r <==> x in ts && !IsBlank(x)
    ensures |r| <= |ts|
  {
    if |ts| == 0 then []
    else (if !IsBlank(ts[0]) then [ts[0]] else []) + NonBlank(ts[1..])
  }

  /**
   * The empty-token filter works token by token and keeps the order: on one
   * token it keeps that token exactly when it is non-empty, and on a
   * concatenation it is the concatenation of the two filtered parts.
   */
  lemma NonEmptyKeepsOrder(a: seq<seq<Unit>>, b: seq<seq<Unit>>, t: seq<Unit>)
    ensures NonEmpty([t]) == if |t| > 0 then [t] else []
    ensures NonEmpty(a + b) == NonEmpty(a) + NonEmpty(b)
  {
    assert [t][1..] == [];
    NonEmptyAppend(a, b);
  }

  /** `NonEmpty` is the token filter that keeps the tokens passing `IsNonEmpty`. */
  lemma {:induction false} NonEmptyIsFilter(ts: seq<seq<Unit>>)
    ensures NonEmpty(ts) == Filter(ts, IsNonEmpty)
    decreases |ts|
  {
    if |ts| > 0 {
      NonEmptyIsFilter(ts[1..]);
    }
  }

  /** `NonEmpty` distributes over concatenation. */
  lemma NonEmptyAppend(a: seq<seq<Unit>>, b: seq<seq<Unit>>)
    ensures NonEmpty(a + b) == NonEmpty(a) + NonEmpty(b)
  {
    NonEmptyIsFilter(a);
    NonEmptyIsFilter(b);
    NonEmptyIsFilter(a + b);
    FilterAppend(a, b, IsNonEmpty);
  }

  /** The blank-token filter likewise keeps the order and each non-blank token. */
  lemma NonBlankKeepsOrder(a: seq<seq<Unit>>, b: seq<seq<Unit>>, t: seq<Unit>)
    ensures NonBlank([t]) == if !IsBlank(t) then [t] else []
    ensures NonBlank(a + b) == NonBlank(a) + NonBlank(b)
  {
    assert [t][1..] == [];
    NonBlankAppend(a, b);
  }

  /** `NonBlank` is the token filter that keeps the tokens passing `IsNotBlank`. */
  lemma {:induction false} NonBlankIsFilter(ts: seq<seq<Unit>>)
    ensures NonBlank(ts) == Filter(ts, IsNotBlank)
    decreases |ts|
  {
    if |ts| > 0 {
      NonBlankIsFilter(ts[1..]);
    }
  }

  /** `NonBlank` distributes over concatenation. */
  lemma NonBlankAppend(a: seq<seq<Unit>>, b: seq<seq<Unit>>)
    ensures NonBlank(a + b) == NonBlank(a) + NonBlank(b)
  {
    NonBlankIsFilter(a);
    NonBlankIsFilter(b);
    NonBlankIsFilter(a + b);
    FilterAppend(a, b, IsNotBlank);
  }

  /** The tokenizer of the JavaFX client (`splitToList`): empty tokens dropped. */
  function SplitToList(joined: seq<Unit>): seq<seq<Unit>> {
    NonEmpty(RegexSplit(joined))
  }

  /** The tokenizer of the desktop controller (`buildPoolMap`): blank tokens dropped. */
  function BuildPoolList(joined: seq<Unit>): seq<seq<Unit>> {
    NonBlank(RegexSplit(joined))
  }

  // ---------------------------------------------------------------------------
  // The plain reading: fields between commas, whitespace removed beside commas.

  /** The position of the first comma at `i` or later, or `|t|` when there is none. */
  function NextComma(t: seq<Unit>, i: nat): (c: nat)
    requires i <= |t|
    ensures i <= c <= |t|
    ensures c < |t| ==> t[c] == Comma
    decreases |t| - i
  {
    if i == |t| || t[i] == Comma then i else NextComma(t, i + 1)
  }

  /** The start of the run of `\s` units that ends at `j`, not reaching before `a`. */
  function SpaceStart(t: seq<Unit>, a: nat, j: nat): (s: nat)
    requires a <= j <= |t|
    ensures a <= s <= j
    decreases j
  {
    if a < j && IsRegexSpace(t[j - 1]) then SpaceStart(t, a, j - 1) else j
  }

  /**
   * The fields of the text from position `i` on, each running to the next comma,
   * without the whitespace after the comma that precedes it (`afterComma`) and
   * without the whitespace before the comma that ends it.
   */
  function PlainFrom(t: seq<Unit>, i: nat, afterComma: bool): (r: seq<seq<Unit>>)
    requires i <= |t|
    ensures |r| > 0
    decreases |t| - i
  {
    var c := NextComma(t, i);
    SpaceEndBeforeComma(t, i);
    var a := if afterComma then SpaceEnd(t, i) else i;
    if c == |t| then [t[a..]]
    else [t[a..SpaceStart(t, a, c)]] + PlainFrom(t, c + 1, true)
  }

  function Plain(t: seq<Unit>): (r: seq<seq<Unit>>)
    ensures |r| > 0
  {
    PlainFrom(t, 0, false)
  }

  // ---------------------------------------------------------------------------
  // Facts about the scans.

  lemma {:induction false} SpaceEndSpec(t: seq<Unit>, i: nat)
    requires i <= |t|
    ensures forall k :: i <= k < SpaceEnd(t, i) ==> IsRegexSpace(t[k])
    ensures SpaceEnd(t, i) < |t| ==> !IsRegexSpace(t[SpaceEnd(t, i)])
    decreases |t| - i
  {
    if i < |t| && IsRegexSpace(t[i]) {
      SpaceEndSpec(t, i + 1);
    }
  }

  /** The run of spaces from `i` stops at the first unit that is no space. */
  lemma {:induction false} SpaceEndStops(t: seq<Unit>, i: nat, q: nat)
    requires i <= q < |t| && !IsRegexSpace(t[q])
    ensures SpaceEnd(t, i) <= q
    decreases q - i
  {
    if i < q && IsRegexSpace(t[i]) {
      SpaceEndStops(t, i + 1, q);
    }
  }

  /** A run of spaces that is followed by no space is the run `SpaceEnd` finds. */
  lemma {:induction false} SpaceEndAt(t: seq<Unit>, i: nat, j: nat)
    requires i <= j <= |t|
    requires forall k :: i <= k < j ==> IsRegexSpace(t[k])
    requires j < |t| ==> !IsRegexSpace(t[j])
    ensures SpaceEnd(t, i) == j
    decreases j - i
  {
    if i < j {
      SpaceEndAt(t, i + 1, j);
    }
  }

  lemma {:induction false} NextCommaSpec(t: seq<Unit>, i: nat)
    requires i <= |t|
    ensures forall k :: i <= k < NextComma(t, i) ==> t[k] != Comma
    decreases |t| - i
  {
    if i < |t| && t[i] != Comma {
      NextCommaSpec(t, i + 1);
    }
  }

  /** Spaces are no commas: the run of spaces ends at or before the next comma. */
  lemma {:induction false} SpaceEndBeforeComma(t: seq<Unit>, i: nat)
    requires i <= |t|
    ensures SpaceEnd(t, i) <= NextComma(t, i)
    ensures NextComma(t, SpaceEnd(t, i)) == NextComma(t, i)
    decreases |t| - i
  {
    if i < |t| && IsRegexSpace(t[i]) {
      SpaceEndBeforeComma(t, i + 1);
    }
  }

  lemma {:induction false} SpaceStartSpec(t: seq<Unit>, a: nat, j: nat)
    requires a <= j <= |t|
    ensures forall k :: SpaceStart(t, a, j) <= k < j ==> IsRegexSpace(t[k])
    ensures a < SpaceStart(t, a, j) ==> !IsRegexSpace(t[SpaceStart(t, a, j) - 1])
    decreases j
  {
    if a < j && IsRegexSpace(t[j - 1]) {
      SpaceStartSpec(t, a, j - 1);
    }
  }

  // ---------------------------------------------------------------------------
  // The matcher agrees with the plain reading.

  /** Without a comma ahead the matcher finds nothing. */
  lemma {:induction false} FindWithoutComma(t: seq<Unit>, p: nat)
    requires p <= |t| && NextComma(t, p) == |t|
    ensures FindFrom(t, p) == None
    decreases |t| - p
  {
    SpaceEndBeforeComma(t, p);
    if p < |t| {
      FindWithoutComma(t, p + 1);
    }
  }

  /** Before the whitespace that precedes the next comma, no match starts. */
  lemma NoMatchBeforeSpaces(t: seq<Unit>, a: nat, p: nat)
    requires a <= p && a <= |t| && NextComma(t, a) < |t|
    requires p < SpaceStart(t, a, NextComma(t, a))
    ensures MatchAt(t, p).None?
  {
    var c := NextComma(t, a);
    var s := SpaceStart(t, a, c);
    SpaceStartSpec(t, a, c);
    SpaceEndStops(t, p, s - 1);
    NextCommaSpec(t, a);
  }

  /** At the whitespace that precedes the next comma, the match starts. */
  lemma MatchAtSpaces(t: seq<Unit>, a: nat)
    requires a <= |t| && NextComma(t, a) < |t|
    ensures var c := NextComma(t, a);
      MatchAt(t, SpaceStart(t, a, c)) == Some(SpaceEnd(t, c + 1))
  {
    var c := NextComma(t, a);
    SpaceStartSpec(t, a, c);
    SpaceEndAt(t, SpaceStart(t, a, c), c);
  }

  /**
   * From any position up to it, the leftmost match begins where the whitespace
   * before the next comma begins and ends where the whitespace after it ends.
   */
  lemma {:induction false} FindAtComma(t: seq<Unit>, a: nat, p: nat)
    requires a <= |t| && NextComma(t, a) < |t|
    requires a <= p <= SpaceStart(t, a, NextComma(t, a))
    ensures var c := NextComma(t, a);
      FindFrom(t, p) == Some(Span(SpaceStart(t, a, c), SpaceEnd(t, c + 1)))
    decreases SpaceStart(t, a, NextComma(t, a)) - p
  {
    if p == SpaceStart(t, a, NextComma(t, a)) {
      MatchAtSpaces(t, a);
    } else {
      NoMatchBeforeSpaces(t, a, p);
      FindAtComma(t, a, p + 1);
    }
  }

  /**
   * One round of the matcher from `a`: the token runs to the spaces before the
   * next comma, and the split goes on after the spaces that follow that comma.
   */
  lemma SplitFromField(t: seq<Unit>, a: nat)
    requires a <= |t|
    ensures var c := NextComma(t, a);
      SplitFrom(t, a) == if c == |t| then [t[a..]]
        else [t[a..SpaceStart(t, a, c)]] + SplitFrom(t, SpaceEnd(t, c + 1))
  {
    if NextComma(t, a) == |t| {
      FindWithoutComma(t, a);
    } else {
      FindAtComma(t, a, a);
    }
  }

  /** One field of the plain reading, stated from where its text starts. */
  lemma PlainFromField(t: seq<Unit>, i: nat, afterComma: bool)
    requires i <= |t|
    ensures var a := if afterComma then SpaceEnd(t, i) else i;
      && a <= NextComma(t, i) == NextComma(t, a)
      && PlainFrom(t, i, afterComma) == if NextComma(t, a) == |t| then [t[a..]]
        else [t[a..SpaceStart(t, a, NextComma(t, a))]] + PlainFrom(t, NextComma(t, a) + 1, true)
  {
    SpaceEndBeforeComma(t, i);
  }

  /** A field read the same way by both, followed by equal rests, gives equal token lists. */
  lemma SplitFromFieldJoin(t: seq<Unit>, i: nat, afterComma: bool)
    requires i <= |t|
    requires var c := NextComma(t, i);
      c < |t| ==> PlainFrom(t, c + 1, true) == SplitFrom(t, SpaceEnd(t, c + 1))
    ensures PlainFrom(t, i, afterComma) == SplitFrom(t, if afterComma then SpaceEnd(t, i) else i)
  {
    var a := if afterComma then SpaceEnd(t, i) else i;
    PlainFromField(t, i, afterComma);
    SplitFromField(t, a);
    var c := NextComma(t, a);
    if c < |t| {
      var field := t[a..SpaceStart(t, a, c)];
      assert PlainFrom(t, i, afterComma) == [field] + PlainFrom(t, c + 1, true);
      assert SplitFrom(t, a) == [field] + SplitFrom(t, SpaceEnd(t, c + 1));
    }
  }

  /** The tokens from where a field's text starts are the plain fields from there. */
  lemma {:induction false} SplitFromIsPlain(t: seq<Unit>, i: nat, afterComma: bool)
    requires i <= |t|
    ensures PlainFrom(t, i, afterComma) == SplitFrom(t, if afterComma then SpaceEnd(t, i) else i)
    decreases |t| - i
  {
    if NextComma(t, i) < |t| {
      SplitFromIsPlain(t, NextComma(t, i) + 1, true);
    }
    SplitFromFieldJoin(t, i, afterComma);
  }

  /** The regular-expression split is the plain reading of the list. */
  lemma RegexSplitIsPlain(t: seq<Unit>)
    ensures RegexSplit(t) == Plain(t)
  {
    SplitFromIsPlain(t, 0, false);
  }

  // ---------------------------------------------------------------------------
  // What the two tokenizers promise.

  /** No plain field holds a comma. */
  lemma {:induction false} PlainHasNoComma(t: seq<Unit>, i: nat, afterComma: bool)
    requires i <= |t|
    ensures forall k :: 0 <= k < |PlainFrom(t, i, afterComma)| ==> NoComma(PlainFrom(t, i, afterComma)[k])
    decreases |t| - i
  {
    if NextComma(t, i) < |t| {
      PlainHasNoComma(t, NextComma(t, i) + 1, true);
    }
    PlainNoCommaJoin(t, i, afterComma);
  }

  /** A comma-free field followed by comma-free fields: every field is comma-free. */
  lemma PlainNoCommaJoin(t: seq<Unit>, i: nat, afterComma: bool)
    requires i <= |t|
    requires NextComma(t, i) < |t| ==> AllNoComma(PlainFrom(t, NextComma(t, i) + 1, true))
    ensures AllNoComma(PlainFrom(t, i, afterComma))
  {
    var a, c := if afterComma then SpaceEnd(t, i) else i, NextComma(t, i);
    PlainFromField(t, i, afterComma);
    if c == |t| {
      NoCommaBefore(t, a, |t|);
      assert t[a..|t|] == t[a..];
      NoCommaCons(t[a..], []);
    } else {
      NoCommaBefore(t, a, SpaceStart(t, a, c));
      NoCommaCons(t[a..SpaceStart(t, a, c)], PlainFrom(t, c + 1, true));
    }
  }

  /** A comma-free field in front of comma-free fields keeps every field comma-free. */
  lemma NoCommaCons(field: seq<Unit>, rest: seq<seq<Unit>>)
    requires NoComma(field) && AllNoComma(rest)
    ensures AllNoComma([field] + rest)
  {
  }

  /** Text that ends at or before the next comma holds no comma. */
  lemma NoCommaBefore(t: seq<Unit>, a: nat, e: nat)
    requires a <= e <= |t|
    requires e <= NextComma(t, a)
    ensures NoComma(t[a..e])
  {
    NextCommaSpec(t, a);
    forall k | 0 <= k < e - a ensures t[a..e][k] != Comma {
      assert t[a..e][k] == t[a + k];
    }
  }

  /** The JavaFX tokens: the non-empty plain fields; none holds a comma. */
  lemma SplitToListSpec(joined: seq<Unit>)
    ensures SplitToList(joined) == NonEmpty(Plain(joined))
    ensures forall tok :: tok in SplitToList(joined) ==> |tok| > 0 && NoComma(tok)
  {
    RegexSplitIsPlain(joined);
    PlainHasNoComma(joined, 0, false);
  }

  /** The desktop tokens are the JavaFX tokens that are not blank. */
  lemma {:induction false} BlankFilterRefinesEmptyFilter(ts: seq<seq<Unit>>)
    ensures NonBlank(ts) == NonBlank(NonEmpty(ts))
  {
    if |ts| > 0 {
      var tail := NonEmpty(ts[1..]);
      BlankFilterRefinesEmptyFilter(ts[1..]);
      if |ts[0]| > 0 {
        var kept := [ts[0]] + tail;
        assert NonEmpty(ts) == kept;
        assert kept[0] == ts[0] && kept[1..] == tail;
      } else {
        assert IsBlank(ts[0]);
        assert NonEmpty(ts) == tail;
      }
    }
  }
}

=== FILE: service.dfy ===
/**
 * The desktop client's service implementation (`CodebreakerServiceImpl`): the
 * local validation that decides whether a request is sent at all, the requests
 * it enqueues, and the callback that settles the future a caller holds. The
 * HTTP layer is abstract: a call to the generated API is a `Request` added to
 * the list of sent requests, and the server's answer is a `Response` fed to
 * `OnResponse` (or a transport failure fed to `OnFailure`).
 */
module Service {
  import opened Wrappers
  import opened JavaText
  import opened Domain
  import opened Errors

  /** The longest code a game may ask for. */
  const MaxLength: int := 20

  // ---------------------------------------------------------------------------
  // Validation.

  /**
   * `isValidGame`: the length lies in 1..20 and every code point of the pool is
   * non-zero and assigned (`Character.isDefined`, given here as `isDefined`).
   * An empty pool passes the character test.
   */
  predicate IsValidGame(game: Game, isDefined: int -> bool) {
    0 < game.length <= MaxLength && AllAccepted(CodePoints(game.pool), isDefined)
  }

  /** `allMatch(cp -> cp != 0 && Character.isDefined(cp))`. */
  predicate AllAccepted(cps: seq<int>, isDefined: int -> bool) {
    forall cp :: cp in cps ==> cp != 0 && isDefined(cp)
  }

  /** `String.indexOf(int)` for a value in the `char` range: the first position of `u`, or -1. */
  function IndexOf(s: seq<Unit>, u: Unit): (r: int)
    ensures -1 <= r < |s|
    ensures r == -1 <==> u !in s
    ensures 0 <= r ==> s[r] == u && u !in s[..r]
  {
    IndexFrom(s, u, 0)
  }

  function IndexFrom(s: seq<Unit>, u: Unit, i: nat): (r: int)
    requires i <= |s|
    ensures r == -1 || i <= r < |s|
    ensures r == -1 <==> u !in s[i..]
    ensures 0 <= r ==> s[r] == u && u !in s[i..r]
    decreases |s| - i
  {
    if i == |s| then -1
    else if s[i] == u then i
    else
      var r := IndexFrom(s, u, i + 1);
      assert s[i..] == [s[i]] + s[i + 1..];
      assert 0 <= r ==> s[i..r] == [s[i]] + s[i + 1..r];
      r
  }

  /**
   * `isValidGuess`: the guess has exactly `length` UTF-16 units and every unit
   * occurs in the pool (`pool.indexOf(ch) >= 0`).
   */
  predicate IsValidGuess(game: Game, guess: Guess) {
    && |guess.text| == game.length
    && forall i :: 0 <= i < |guess.text| ==> IndexOf(game.pool, guess.text[i]) >= 0
  }

  /** The guess test in terms of membership alone. */
  lemma IsValidGuessSpec(game: Game, guess: Guess)
    ensures IsValidGuess(game, guess) <==>
      |guess.text| == game.length && forall u :: u in guess.text ==> u in game.pool
  {
    if |guess.text| == game.length && forall u :: u in guess.text ==> u in game.pool {
      forall i | 0 <= i < |guess.text| ensures IndexOf(game.pool, guess.text[i]) >= 0 {
        assert guess.text[i] in guess.text;
      }
    }
  }

  /**
   * The pool test as the stream evaluates it: one code point at a time from the
   * front, stopping at the first that fails.
   */
  method CheckGame(game: Game, isDefined: int -> bool) returns (ok: bool)
    ensures ok <==> IsValidGame(game, isDefined)
  {
    if !(0 < game.length <= MaxLength) {
      return false;
    }
    var rest := game.pool;
    while |rest| > 0
      invariant IsValidGame(game, isDefined) <==> AllAccepted(CodePoints(rest), isDefined)
      decreases |rest|
    {
      var (cp, n) := DecodeHead(rest);
      CodePointsCons(rest);
      AcceptedCons(cp, CodePoints(rest[n..]), isDefined);
      if cp == 0 || !isDefined(cp) {
        return false;
      }
      rest := rest[n..];
    }
    return true;
  }

  /** `String.codePoints()` yields the code point at the front, then those of the rest. */
  lemma CodePointsCons(s: seq<Unit>)
    requires |s| > 0
    ensures CodePoints(s) == [DecodeHead(s).0] + CodePoints(s[DecodeHead(s).1..])
  {
  }

  lemma AcceptedCons(cp: int, tail: seq<int>, isDefined: int -> bool)
    ensures AllAccepted([cp] + tail, isDefined) <==> cp != 0 && isDefined(cp) && AllAccepted(tail, isDefined)
  {
    assert cp in [cp] + tail;
    assert forall x :: x in tail ==> x in [cp] + tail;
  }

  /** The guess test as the stream evaluates it: one unit at a time, each searched for in the pool. */
  method CheckGuess(game: Game, guess: Guess) returns (ok: bool)
    ensures ok <==> |guess.text| == game.length && forall u :: u in guess.text ==> u in game.pool
  {
    IsValidGuessSpec(game, guess);
    if |guess.text| != game.length {
      return false;
    }
    var i := 0;
    while i < |guess.text|
      invariant 0 <= i <= |guess.text|
      invariant forall j :: 0 <= j < i ==> guess.text[j] in game.pool
    {
      var found := -1;
      var k := 0;
      while k < |game.pool| && found < 0
        invariant 0 <= k <= |game.pool|
        invariant found < 0 ==> guess.text[i] !in game.pool[..k]
        invariant found >= 0 ==> guess.text[i] in game.pool
      {
        if game.pool[k] == guess.text[i] {
          found := k;
        }
        assert game.pool[..k + 1] == game.pool[..k] + [game.pool[k]];
        k := k + 1;
      }
      if found < 0 {
        assert game.pool[..k] == game.pool;
        return false;
      }
      i := i + 1;
    }
    return true;
  }

  // ---------------------------------------------------------------------------
  // Requests and futures.

  /** A call of the generated API that has been enqueued. */
  datatype Request =
    | StartGameRequest(game: Game)
    | GetGameRequest(gameId: Text)
    | DeleteGameRequest(gameId: Text)
    | SubmitGuessRequest(targetId: Option<Text>, guess: Guess)
    | GetGuessRequest(gameId: Text, guessId: Text)

  /** A `CompletableFuture`: not yet settled, completed with a (possibly null) value, or failed. */
  datatype Future<T> = Pending | Completed(value: Option<T>) | Failed(error: Throwable)

  /** What a service method returns, together with the requests it enqueued. */
  datatype Call<T> = Call(future: Future<T>, sent: seq<Request>)

  /** `startGame`: an invalid game fails at once with IllegalArgumentException and sends nothing. */
  function StartGame(game: Game, isDefined: int -> bool): (c: Call<Game>)
    ensures c.future.Pending? <==> IsValidGame(game, isDefined)
    ensures !c.future.Pending? ==> c.future == Failed(Raise(IllegalArgument))
    ensures |c.sent| == (if IsValidGame(game, isDefined) then 1 else 0)
    ensures forall q :: q in c.sent ==> q == StartGameRequest(game)
  {
    if IsValidGame(game, isDefined) then Call(Pending, [StartGameRequest(game)])
    else Call(Failed(Raise(IllegalArgument)), [])
  }

  /** `submitGuess`: an invalid guess fails at once; a valid one is sent under the game's id. */
  function SubmitGuess(game: Game, guess: Guess): (c: Call<Guess>)
    ensures c.future.Pending? <==> |guess.text| == game.length && forall u :: u in guess.text ==> u in game.pool
    ensures !c.future.Pending? ==> c.future == Failed(Raise(IllegalArgument)) && c.sent == []
    ensures c.future.Pending? ==> c.sent == [SubmitGuessRequest(game.id, guess)]
  {
    IsValidGuessSpec(game, guess);
    if IsValidGuess(game, guess) then Call(Pending, [SubmitGuessRequest(game.id, guess)])
    else Call(Failed(Raise(IllegalArgument)), [])
  }

  /**
   * The guess test counts UTF-16 units while the pool test reads code points: a
   * game of length 1 whose pool is the single supplementary character U+1F600
   * is started, yet the one-character guess made of that very character has two
   * units and is refused without being sent.
   */
  lemma SupplementaryGuessRefused(isDefined: int -> bool)
    requires isDefined(0x1F600)
    ensures var game := NewGame(Encode(0x1F600), 1);
      && StartGame(game, isDefined).future.Pending?
      && SubmitGuess(game, NewGuess(Encode(0x1F600))).future.Failed?
  {
    CodePointsOfSingle(0x1F600);
  }

  /** `getGame`: no local check; exactly one request, with the id unchanged. */
  function GetGame(gameId: Text): (c: Call<Game>)
    ensures c.future.Pending? && |c.sent| == 1
    ensures c.sent[0].GetGameRequest? && c.sent[0].gameId == gameId
  {
    Call(Pending, [GetGameRequest(gameId)])
  }

  /** `delete`: no local check; exactly one request, with the id unchanged. */
  function Delete(gameId: Text): (c: Call<()>)
    ensures c.future.Pending? && |c.sent| == 1
    ensures c.sent[0].DeleteGameRequest? && c.sent[0].gameId == gameId
  {
    Call(Pending, [DeleteGameRequest(gameId)])
  }

  /** `getGuess`: no local check; exactly one request, with both ids unchanged. */
  function GetGuess(gameId: Text, guessId: Text): (c: Call<Guess>)
    ensures c.future.Pending? && |c.sent| == 1
    ensures c.sent[0].GetGuessRequest?
    ensures c.sent[0].gameId == gameId && c.sent[0].guessId == guessId
  {
    Call(Pending, [GetGuessRequest(gameId, guessId)])
  }

  // ---------------------------------------------------------------------------
  // The callback.

  /** An HTTP response: the status code and the decoded body (null when absent). */
  datatype Response<T> = Response(code: int, body: Option<T>)

  /** Retrofit's `Response.isSuccessful`: a 2xx status. */
  predicate IsSuccessful(code: int) {
    200 <= code < 300
  }

  /**
   * `ServiceCallback.onResponse`: a success completes the future with the body,
   * any other status fails it with the exception `StatusError` chooses. Like
   * `complete` and `completeExceptionally`, it leaves a settled future alone.
   */
  function OnResponse<T>(f: Future<T>, r: Response<T>): (g: Future<T>)
    ensures !f.Pending? ==> g == f
    ensures f.Pending? ==> !g.Pending?
    ensures f.Pending? && IsSuccessful(r.code) ==> g == Completed(r.body)
    ensures f.Pending? && !IsSuccessful(r.code) ==> g.Failed? && g.error.cause.None?
    ensures f.Pending? && !IsSuccessful(r.code) && r.code == 400 ==> g.error.kind == IllegalArgument
    ensures f.Pending? && !IsSuccessful(r.code) && r.code == 404 ==> g.error.kind == NoSuchElement
    ensures f.Pending? && !IsSuccessful(r.code) && r.code == 409 ==> g.error.kind == IllegalState
    ensures f.Pending? && !IsSuccessful(r.code) && r.code !in {400, 404, 409} ==> g.error.kind == RuntimeKind
  {
    if !f.Pending? then f
    else if IsSuccessful(r.code) then Completed(r.body)
    else Failed(Raise(StatusError(r.code)))
  }

  /** `ServiceCallback.onFailure` does nothing: the future stays as it was, pending included. */
  function OnFailure<T>(f: Future<T>, cause: Throwable): (g: Future<T>)
    ensures g == f
  {
    f
  }

  /** A future settles on the first response; later responses and transport failures change nothing. */
  lemma FirstResponseWins<T>(f: Future<T>, r1: Response<T>, r2: Response<T>, t: Throwable)
    ensures OnResponse(OnResponse(f, r1), r2) == OnResponse(f, r1)
    ensures OnFailure(OnResponse(f, r1), t) == OnResponse(f, r1)
  {
  }

  /** A request that only ever meets transport failures leaves its caller waiting forever. */
  lemma {:induction false} TransportFailuresNeverSettle<T>(f: Future<T>, failures: seq<Throwable>)
    requires f.Pending?
    ensures FailAll(f, failures).Pending?
  {
    if |failures| > 0 {
      TransportFailuresNeverSettle(OnFailure(f, failures[0]), failures[1..]);
    }
  }

  function FailAll<T>(f: Future<T>, failures: seq<Throwable>): Future<T> {
    if |failures| == 0 then f else FailAll(OnFailure(f, failures[0]), failures[1..])
  }
}

=== FILE: session.dfy ===
/**
 * The JavaFX client's `GameViewModel`: four cached values (game, guess, solved
 * flag, error), four observer lists, and the notifications its setters hand to
 * `Platform.runLater`. The JavaFX event queue is the `pending` list: a setter
 * appends one notification, and `Deliver` later takes the oldest and passes it
 * to the observers registered at that moment, as the queued lambda reads the
 * observer list only when it runs.
 *
 * Each public operation is split in two: an issuing function that returns the
 * service call it makes, and a completion function that applies the stages
 * chained on the returned future once the service settles it.
 */
module Session {
  import opened Wrappers
  import opened JavaText
  import opened Domain
  import opened Errors
  import opened Observers

  /** Which of the four observer lists a notification goes to. */
  datatype Channel = GameChannel | SolvedChannel | GuessChannel | ErrorChannel

  /** The value one queued `runLater` lambda passes to the observers of its channel. */
  datatype Notification =
    | GameChanged(game: Option<Game>)
    | SolvedChanged(solved: Option<bool>)
    | GuessChanged(guess: Option<Guess>)
    | ErrorChanged(error: Option<Throwable>)

  function ChannelOf(n: Notification): Channel {
    match n
    case GameChanged(_) => GameChannel
    case SolvedChanged(_) => SolvedChannel
    case GuessChanged(_) => GuessChannel
    case ErrorChanged(_) => ErrorChannel
  }

  datatype ViewModel = ViewModel(
    game: Option<Game>,
    guess: Option<Guess>,
    solved: Option<bool>,
    error: Option<Throwable>,
    gameObservers: seq<ObserverId>,
    guessObservers: seq<ObserverId>,
    solvedObservers: seq<ObserverId>,
    errorObservers: seq<ObserverId>,
    pending: seq<Notification>)

  /** The singleton as constructed: nothing cached, nobody registered, nothing queued. */
  function Initial(): (vm: ViewModel)
    ensures vm.game.None? && vm.guess.None? && vm.solved.None? && vm.error.None?
    ensures vm.pending == []
  {
    ViewModel(None, None, None, None, [], [], [], [], [])
  }

  /** A service call the view model makes; its future's stages are applied by the matching completion. */
  datatype ServiceCall =
    | StartGameCall(game: Game)
    | GetGameCall(gameId: Option<Text>)
    | DeleteGameByIdCall(gameId: Option<Text>)
    | DeleteCurrentGameCall(gameId: Option<Text>)
    | SubmitGuessCall(target: Option<Game>, guess: Guess)
    | GetGuessCall(gameId: Option<Text>, guessId: Text)

  /** How the service settled a future: with a (possibly null) value, or exceptionally. */
  datatype Outcome<T> = Success(value: Option<T>) | Failure(error: Throwable)

  // ---------------------------------------------------------------------------
  // Cached values and the queue.

  /** The notification that carries the cached value of a channel. */
  function Cached(vm: ViewModel, ch: Channel): (n: Notification)
    ensures ChannelOf(n) == ch
  {
    match ch
    case GameChannel => GameChanged(vm.game)
    case SolvedChannel => SolvedChanged(vm.solved)
    case GuessChannel => GuessChanged(vm.guess)
    case ErrorChannel => ErrorChanged(vm.error)
  }

  function ObserversOf(vm: ViewModel, ch: Channel): seq<ObserverId> {
    match ch
    case GameChannel => vm.gameObservers
    case SolvedChannel => vm.solvedObservers
    case GuessChannel => vm.guessObservers
    case ErrorChannel => vm.errorObservers
  }

  /** The newest queued notification of a channel, if any. */
  function LastOn(pending: seq<Notification>, ch: Channel): (r: Option<Notification>)
    ensures r.Some? ==> r.value in pending && ChannelOf(r.value) == ch
    ensures r.None? ==> forall i :: 0 <= i < |pending| ==> ChannelOf(pending[i]) != ch
  {
    if |pending| == 0 then None
    else if ChannelOf(pending[|pending| - 1]) == ch then Some(pending[|pending| - 1])
    else LastOn(pending[..|pending| - 1], ch)
  }

  /**
   * Whatever is still queued for a channel ends with the value now cached, so
   * once the queue drains every observer's latest value is the cached one.
   */
  ghost predicate Consistent(vm: ViewModel) {
    forall ch :: LastOn(vm.pending, ch).Some? ==> LastOn(vm.pending, ch).value == Cached(vm, ch)
  }

  // ---------------------------------------------------------------------------
  // The setters.

  /** `setGame`: store the game and queue its delivery to the game observers. */
  function SetGame(vm: ViewModel, g: Option<Game>): ViewModel
  {
    vm.(game := g, pending := vm.pending + [GameChanged(g)])
  }

  /** `setSolved`. */
  function SetSolved(vm: ViewModel, s: Option<bool>): ViewModel
  {
    vm.(solved := s, pending := vm.pending + [SolvedChanged(s)])
  }

  /** `setGuess`. */
  function SetGuess(vm: ViewModel, g: Option<Guess>): ViewModel
  {
    vm.(guess := g, pending := vm.pending + [GuessChanged(g)])
  }

  /** `setError`. */
  function SetError(vm: ViewModel, t: Throwable): ViewModel
  {
    vm.(error := Some(t), pending := vm.pending + [ErrorChanged(Some(t))])
  }

  /** `logError`: record the cause of what reached `exceptionally`, or the throwable itself. */
  function LogError(vm: ViewModel, t: Throwable): (r: ViewModel)
    ensures r.error == Some(CauseOrSelf(t))
    ensures r.game == vm.game && r.guess == vm.guess && r.solved == vm.solved
    ensures r.pending == vm.pending + [ErrorChanged(Some(CauseOrSelf(t)))]
  {
    SetError(vm, CauseOrSelf(t))
  }

  /** A setter's notification carries the value it stores, so setters keep the queue consistent. */
  lemma SetterKeepsConsistent(vm: ViewModel, n: Notification)
    requires Consistent(vm)
    ensures Consistent(Store(vm, n))
  {
    var r := Store(vm, n);
    forall ch | LastOn(r.pending, ch).Some? ensures LastOn(r.pending, ch).value == Cached(r, ch) {
      assert r.pending[..|r.pending| - 1] == vm.pending;
      if ChannelOf(n) != ch {
        assert Cached(r, ch) == Cached(vm, ch);
      }
    }
  }

  /** The setter for the channel of `n`, storing the value `n` carries. */
  function Store(vm: ViewModel, n: Notification): (r: ViewModel)
    ensures Cached(r, ChannelOf(n)) == n
    ensures r.pending == vm.pending + [n]
    ensures forall ch :: ch != ChannelOf(n) ==> Cached(r, ch) == Cached(vm, ch)
    ensures SameObservers(vm, r)
  {
    match n
    case GameChanged(g) => SetGame(vm, g)
    case SolvedChanged(s) => SetSolved(vm, s)
    case GuessChanged(g) => SetGuess(vm, g)
    case ErrorChanged(t) => vm.(error := t, pending := vm.pending + [n])
  }

  // ---------------------------------------------------------------------------
  // Delivery and registration.

  /**
   * One queued `runLater` lambda runs: the oldest notification goes to the
   * observers registered on its channel now, in registration order, until one
   * throws (`accept` tells how each call ends). The exception leaves the lambda
   * to the FX thread's uncaught-exception handler; either way the notification
   * is off the queue and the cached values are untouched.
   */
  function Deliver(vm: ViewModel, accept: Delivery<Notification> -> Option<Kind>): (r: (ViewModel, Broadcasted<Notification>))
    ensures |vm.pending| == 0 ==> r == (vm, Broadcasted([], None))
    ensures |vm.pending| > 0 ==> r.0 == vm.(pending := vm.pending[1..])
    ensures |vm.pending| > 0 ==> ForEachOutcome(ObserversOf(vm, ChannelOf(vm.pending[0])), vm.pending[0], accept, r.1)
  {
    if |vm.pending| == 0 then (vm, Broadcasted([], None))
    else (vm.(pending := vm.pending[1..]), BroadcastUntil(ObserversOf(vm, ChannelOf(vm.pending[0])), vm.pending[0], accept))
  }

  /** Taking the oldest notification off the queue keeps it consistent. */
  lemma DeliverKeepsConsistent(vm: ViewModel, accept: Delivery<Notification> -> Option<Kind>)
    requires Consistent(vm)
    ensures Consistent(Deliver(vm, accept).0)
  {
    if |vm.pending| > 0 {
      forall ch ensures LastOn(vm.pending[1..], ch).Some? ==> LastOn(vm.pending[1..], ch) == LastOn(vm.pending, ch) {
        LastOnDropFirst(vm.pending, ch);
      }
    }
  }

  /** Dropping the oldest notification leaves the newest of a channel in place, or none at all. */
  lemma {:induction false} LastOnDropFirst(p: seq<Notification>, ch: Channel)
    requires |p| > 0
    ensures LastOn(p[1..], ch).None? || LastOn(p[1..], ch) == LastOn(p, ch)
    decreases |p|
  {
    if |p| > 1 && ChannelOf(p[|p| - 1]) != ch {
      assert p[1..][..|p[1..]| - 1] == p[..|p| - 1][1..];
      LastOnDropFirst(p[..|p| - 1], ch);
    }
  }

  /**
   * `registerGameObserver`: append the observer; if a game is cached, hand it
   * over at once. The observer is appended before that call, so it stays
   * registered when the call throws and the exception leaves the registration.
   */
  function RegisterGameObserver(vm: ViewModel, o: ObserverId): (r: (ViewModel, seq<Delivery<Notification>>))
    ensures r.0 == vm.(gameObservers := vm.gameObservers + [o])
    ensures |r.1| == 1 <==> vm.game.Some?
    ensures |r.1| <= 1
    ensures |r.1| == 1 ==> r.1[0] == Delivery(o, GameChanged(vm.game))
  {
    (vm.(gameObservers := vm.gameObservers + [o]),
     if vm.game.Some? then [Delivery(o, GameChanged(vm.game))] else [])
  }

  /** `registerGuessObserver`. */
  function RegisterGuessObserver(vm: ViewModel, o: ObserverId): (r: (ViewModel, seq<Delivery<Notification>>))
    ensures r.0 == vm.(guessObservers := vm.guessObservers + [o])
    ensures |r.1| == 1 <==> vm.guess.Some?
    ensures |r.1| <= 1
    ensures |r.1| == 1 ==> r.1[0] == Delivery(o, GuessChanged(vm.guess))
  {
    (vm.(guessObservers := vm.guessObservers + [o]),
     if vm.guess.Some? then [Delivery(o, GuessChanged(vm.guess))] else [])
  }

  /** `registerSolvedObserver`. */
  function RegisterSolvedObserver(vm: ViewModel, o: ObserverId): (r: (ViewModel, seq<Delivery<Notification>>))
    ensures r.0 == vm.(solvedObservers := vm.solvedObservers + [o])
    ensures |r.1| == 1 <==> vm.solved.Some?
    ensures |r.1| <= 1
    ensures |r.1| == 1 ==> r.1[0] == Delivery(o, SolvedChanged(vm.solved))
  {
    (vm.(solvedObservers := vm.solvedObservers + [o]),
     if vm.solved.Some? then [Delivery(o, SolvedChanged(vm.solved))] else [])
  }

  /** `registerErrorObserver`. */
  function RegisterErrorObserver(vm: ViewModel, o: ObserverId): (r: (ViewModel, seq<Delivery<Notification>>))
    ensures r.0 == vm.(errorObservers := vm.errorObservers + [o])
    ensures |r.1| == 1 <==> vm.error.Some?
    ensures |r.1| <= 1
    ensures |r.1| == 1 ==> r.1[0] == Delivery(o, ErrorChanged(vm.error))
  {
    (vm.(errorObservers := vm.errorObservers + [o]),
     if vm.error.Some? then [Delivery(o, ErrorChanged(vm.error))] else [])
  }

  /**
   * A value set while nothing else is queued reaches exactly the observers of its
   * channel, in registration order until one throws, when its lambda runs.
   */
  lemma SetThenDeliver(vm: ViewModel, n: Notification, accept: Delivery<Notification> -> Option<Kind>)
    requires vm.pending == []
    ensures ForEachOutcome(ObserversOf(vm, ChannelOf(n)), n, accept, Deliver(Store(vm, n), accept).1)
    ensures Deliver(Store(vm, n), accept).0.pending == []
    ensures Cached(Deliver(Store(vm, n), accept).0, ChannelOf(n)) == n
  {
    var r := Store(vm, n);
    assert r.pending == [n];
    assert ObserversOf(r, ChannelOf(n)) == ObserversOf(vm, ChannelOf(n));
  }

  // ---------------------------------------------------------------------------
  // Issuing calls.

  /** `startGame(pool, length)`: a new game with that pool and length goes to the service. */
  function StartGame(pool: Text, length: int): (c: ServiceCall)
    ensures c.StartGameCall? && c.game.pool == pool && c.game.length == length && c.game.id.None?
  {
    StartGameCall(NewGame(pool, length))
  }

  /** `getGame(gameId)`. */
  function GetGame(gameId: Option<Text>): (c: ServiceCall)
    ensures c.GetGameCall? && c.gameId == gameId
  {
    GetGameCall(gameId)
  }

  /** `deleteGame(gameId)`. */
  function DeleteGameById(gameId: Option<Text>): (c: ServiceCall)
    ensures c.DeleteGameByIdCall? && c.gameId == gameId
  {
    DeleteGameByIdCall(gameId)
  }

  /**
   * `deleteGame()`: the current game's id goes to the service; without a current
   * game `game.getId()` throws at once (`None`) and nothing is sent.
   */
  function DeleteCurrentGame(vm: ViewModel): (c: Option<ServiceCall>)
    ensures c.Some? <==> vm.game.Some?
    ensures c.Some? ==> c.value == DeleteCurrentGameCall(vm.game.value.id)
  {
    if vm.game.None? then None else Some(DeleteCurrentGameCall(vm.game.value.id))
  }

  /** `submitGuess(text)`: a new guess with that text, for the current game (null included). */
  function SubmitGuess(vm: ViewModel, text: Text): (c: ServiceCall)
    ensures c.SubmitGuessCall? && c.target == vm.game && c.guess.text == text && c.guess.solution.None?
  {
    SubmitGuessCall(vm.game, NewGuess(text))
  }

  /** `getGuess(guessId)`: for the current game; without one, `game.getId()` throws at once. */
  function GetGuess(vm: ViewModel, guessId: Text): (c: Option<ServiceCall>)
    ensures c.Some? <==> vm.game.Some?
    ensures c.Some? ==> c.value == GetGuessCall(vm.game.value.id, guessId)
  {
    if vm.game.None? then None else Some(GetGuessCall(vm.game.value.id, guessId))
  }

  // ---------------------------------------------------------------------------
  // Completions.

  /** The NullPointerException a stage's lambda throws, as the next stage sees it. */
  function LambdaNpe(): Throwable {
    Wrap(Raise(NullPointer))
  }

  /**
   * What the error observers receive for a failure `t` of the service's future
   * that travels through at least one dependent stage: `t` itself, unless `t`
   * already was a CompletionException, which then is unwrapped.
   */
  function Reported(t: Throwable): Throwable {
    if t.kind == Completion then CauseOrSelf(t) else t
  }

  /** The four observer lists are those of `vm`: a completion registers and removes nobody. */
  predicate SameObservers(vm: ViewModel, r: ViewModel) {
    && r.gameObservers == vm.gameObservers && r.solvedObservers == vm.solvedObservers
    && r.guessObservers == vm.guessObservers && r.errorObservers == vm.errorObservers
  }

  /** Only the error changed: it is `t`, and one error notification carrying `t` is queued. */
  predicate OnlyErrorSet(vm: ViewModel, r: ViewModel, t: Throwable) {
    r == vm.(error := Some(t), pending := vm.pending + [ErrorChanged(Some(t))])
  }

  /**
   * The stages of `startGame` and `getGame`: `setGame(game).getSolved()`, then
   * `setSolved`; a failure of the service, or of `getSolved()` on a null game,
   * reaches `logError` wrapped in a CompletionException.
   */
  function OnGameLoaded(vm: ViewModel, o: Outcome<Game>): (r: ViewModel)
    ensures o.Success? && o.value.Some? ==>
      && r.game == o.value && r.solved == o.value.value.solved
      && r.guess == vm.guess && r.error == vm.error
      && r.pending == vm.pending + [GameChanged(o.value), SolvedChanged(o.value.value.solved)]
    ensures o.Success? && o.value.None? ==>
      && r.game.None? && r.solved == vm.solved && r.guess == vm.guess
      && r.error == Some(Raise(NullPointer))
      && r.pending == vm.pending + [GameChanged(None), ErrorChanged(Some(Raise(NullPointer)))]
    ensures o.Failure? ==> OnlyErrorSet(vm, r, Reported(o.error))
    ensures SameObservers(vm, r)
  {
    match o
    case Success(Some(g)) => SetSolved(SetGame(vm, Some(g)), g.solved)
    case Success(None) => LogError(SetGame(vm, None), LambdaNpe())
    case Failure(t) => LogError(vm, Wrap(t))
  }

  /**
   * `deleteGame(gameId)`: success changes nothing and queues nothing; the
   * failure reaches `logError` as the service raised it, with no wrapper.
   */
  function OnGameDeletedById(vm: ViewModel, o: Outcome<()>): (r: ViewModel)
    ensures o.Success? ==> r == vm
    ensures o.Failure? ==> OnlyErrorSet(vm, r, CauseOrSelf(o.error))
    ensures SameObservers(vm, r)
  {
    match o
    case Success(_) => vm
    case Failure(t) => LogError(vm, t)
  }

  /** `deleteGame()`: success clears the current game and tells the game observers; solved and guess stay. */
  function OnCurrentGameDeleted(vm: ViewModel, o: Outcome<()>): (r: ViewModel)
    ensures o.Success? ==> r == vm.(game := None, pending := vm.pending + [GameChanged(None)])
    ensures o.Failure? ==> OnlyErrorSet(vm, r, Reported(o.error))
    ensures SameObservers(vm, r)
  {
    match o
    case Success(_) => SetGame(vm, None)
    case Failure(t) => LogError(vm, Wrap(t))
  }

  /**
   * `submitGuess`: `setGuess(response)`, then either refetch the game when the
   * response's solution flag is exactly TRUE, or append the response to the
   * current game's guesses and publish the game again. The lambda reads the
   * view model's game when it runs; a null response or a null game throws.
   */
  function OnGuessSubmitted(vm: ViewModel, o: Outcome<Guess>): (r: (ViewModel, seq<ServiceCall>))
    ensures o.Failure? ==> r.1 == [] && OnlyErrorSet(vm, r.0, Reported(o.error))
    ensures o.Success? ==> r.0.guess == o.value && r.0.solved == vm.solved
    ensures o.Success? && (o.value.None? || vm.game.None?) ==>
      && r.1 == [] && r.0.game == vm.game && r.0.error == Some(Raise(NullPointer))
      && r.0.pending == vm.pending + [GuessChanged(o.value), ErrorChanged(Some(Raise(NullPointer)))]
    ensures o.Success? && o.value.Some? && vm.game.Some? && o.value.value.solution == Some(true) ==>
      && r.1 == [GetGameCall(vm.game.value.id)]
      && r.0.game == vm.game && r.0.error == vm.error
      && r.0.pending == vm.pending + [GuessChanged(o.value)]
    ensures o.Success? && o.value.Some? && vm.game.Some? && o.value.value.solution != Some(true) ==>
      var before, after := vm.game.value, r.0.game;
      && r.1 == []
      && after.Some? && after.value == before.(guesses := after.value.guesses)
      && after.value.guesses == before.guesses + [o.value.value]
      && r.0.error == vm.error
      && r.0.pending == vm.pending + [GuessChanged(o.value), GameChanged(after)]
    ensures SameObservers(vm, r.0)
  {
    match o
    case Failure(t) => (LogError(vm, Wrap(t)), [])
    case Success(None) => (LogError(SetGuess(vm, None), LambdaNpe()), [])
    case Success(Some(g)) =>
      var vm1 := SetGuess(vm, Some(g));
      if vm1.game.None? then (LogError(vm1, LambdaNpe()), [])
      else if g.solution == Some(true) then (vm1, [GetGameCall(vm1.game.value.id)])
      else
        var game := vm1.game.value;
        (SetGame(vm1, Some(game.(guesses := game.guesses + [g]))), [])
  }

  /** `getGuess`: `setGuess(response)`, the game untouched; a failure reaches `logError` wrapped. */
  function OnGuessFetched(vm: ViewModel, o: Outcome<Guess>): (r: ViewModel)
    ensures o.Success? ==> r == vm.(guess := o.value, pending := vm.pending + [GuessChanged(o.value)])
    ensures o.Failure? ==> OnlyErrorSet(vm, r, Reported(o.error))
    ensures SameObservers(vm, r)
  {
    match o
    case Success(g) => SetGuess(vm, g)
    case Failure(t) => LogError(vm, Wrap(t))
  }

  /** A failure without a cause that the service raised reaches the error observers as itself on every path. */
  lemma ServiceFailureReportedAsIs(t: Throwable)
    requires t.kind != Completion && t.cause.None?
    ensures Reported(t) == t && CauseOrSelf(t) == t
    ensures CauseOrSelf(Wrap(t)) == t
  {
    CauseOrSelfOfWrap(t);
  }

  /** Every completion keeps the queue consistent with the cached values. */
  lemma CompletionsKeepConsistent(vm: ViewModel, og: Outcome<Game>, od: Outcome<()>, ou: Outcome<Guess>)
    requires Consistent(vm)
    ensures Consistent(OnGameLoaded(vm, og))
    ensures Consistent(OnGameDeletedById(vm, od))
    ensures Consistent(OnCurrentGameDeleted(vm, od))
    ensures Consistent(OnGuessSubmitted(vm, ou).0)
    ensures Consistent(OnGuessFetched(vm, ou))
  {
    OnGameLoadedKeepsConsistent(vm, og);
    OnGameDeletedByIdKeepsConsistent(vm, od);
    OnCurrentGameDeletedKeepsConsistent(vm, od);
    OnGuessSubmittedKeepsConsistent(vm, ou);
    OnGuessFetchedKeepsConsistent(vm, ou);
  }

  lemma OnGameLoadedKeepsConsistent(vm: ViewModel, o: Outcome<Game>)
    requires Consistent(vm)
    ensures Consistent(OnGameLoaded(vm, o))
  {
    match o
    case Success(Some(g)) =>
      SetterKeepsConsistent(vm, GameChanged(Some(g)));
      SetterKeepsConsistent(Store(vm, GameChanged(Some(g))), SolvedChanged(g.solved));
    case Success(None) =>
      SetterKeepsConsistent(vm, GameChanged(None));
      SetterKeepsConsistent(Store(vm, GameChanged(None)), ErrorChanged(Some(Raise(NullPointer))));
    case Failure(t) =>
      SetterKeepsConsistent(vm, ErrorChanged(Some(CauseOrSelf(Wrap(t)))));
  }

  lemma OnGameDeletedByIdKeepsConsistent(vm: ViewModel, o: Outcome<()>)
    requires Consistent(vm)
    ensures Consistent(OnGameDeletedById(vm, o))
  {
    if o.Failure? {
      SetterKeepsConsistent(vm, ErrorChanged(Some(CauseOrSelf(o.error))));
    }
  }

  lemma OnCurrentGameDeletedKeepsConsistent(vm: ViewModel, o: Outcome<()>)
    requires Consistent(vm)
    ensures Consistent(OnCurrentGameDeleted(vm, o))
  {
    match o
    case Success(_) => SetterKeepsConsistent(vm, GameChanged(None));
    case Failure(t) => SetterKeepsConsistent(vm, ErrorChanged(Some(CauseOrSelf(Wrap(t)))));
  }

  lemma OnGuessSubmittedKeepsConsistent(vm: ViewModel, o: Outcome<Guess>)
    requires Consistent(vm)
    ensures Consistent(OnGuessSubmitted(vm, o).0)
  {
    match o
    case Failure(t) => SetterKeepsConsistent(vm, ErrorChanged(Some(CauseOrSelf(Wrap(t)))));
    case Success(g) =>
      var n := GuessChanged(g);
      SetterKeepsConsistent(vm, n);
      var vm1 := Store(vm, n);
      if g.None? || vm1.game.None? {
        SetterKeepsConsistent(vm1, ErrorChanged(Some(Raise(NullPointer))));
      } else if g.value.solution != Some(true) {
        var game := vm1.game.value;
        SetterKeepsConsistent(vm1, GameChanged(Some(game.(guesses := game.guesses + [g.value]))));
      }
  }

  lemma OnGuessFetchedKeepsConsistent(vm: ViewModel, o: Outcome<Guess>)
    requires Consistent(vm)
    ensures Consistent(OnGuessFetched(vm, o))
  {
    match o
    case Success(g) => SetterKeepsConsistent(vm, GuessChanged(g));
    case Failure(t) => SetterKeepsConsistent(vm, ErrorChanged(Some(CauseOrSelf(Wrap(t)))));
  }
}

=== FILE: sync_view_model.dfy ===
/**
 * The desktop client's `GameViewModel`: three cached values and three observer
 * lists. Unlike the JavaFX one, its setters call the observers at once, on the
 * caller's thread, so a setter returns the calls it makes and the exception
 * an observer threw, which then leaves the setter.
 */
module SyncViewModel {
  import opened Wrappers
  import opened Domain
  import opened Errors
  import opened Observers

  datatype SyncViewModel = SyncViewModel(
    game: Option<Game>,
    guess: Option<Guess>,
    error: Option<Throwable>,
    gameObservers: seq<ObserverId>,
    guessObservers: seq<ObserverId>,
    errorObservers: seq<ObserverId>)

  /** The value one `consumer.accept` call passes. */
  datatype Update =
    | GameUpdate(game: Option<Game>)
    | GuessUpdate(guess: Option<Guess>)
    | ErrorUpdate(error: Option<Throwable>)

  /** The singleton as constructed: empty observer lists, nothing cached. */
  function Initial(): (vm: SyncViewModel)
    ensures vm.game.None? && vm.guess.None? && vm.error.None?
    ensures vm.gameObservers == [] && vm.guessObservers == [] && vm.errorObservers == []
  {
    SyncViewModel(None, None, None, [], [], [])
  }

  /** The observer list a value of this kind goes to. */
  function Targets(vm: SyncViewModel, u: Update): seq<ObserverId> {
    match u
    case GameUpdate(_) => vm.gameObservers
    case GuessUpdate(_) => vm.guessObservers
    case ErrorUpdate(_) => vm.errorObservers
  }

  /**
   * The observers of `u`'s own list receive it, in list order, each at most once,
   * until one throws; `accept` tells how each call ends.
   */
  predicate ReachesOwnList(vm: SyncViewModel, u: Update, accept: Delivery<Update> -> Option<Kind>, b: Broadcasted<Update>) {
    ForEachOutcome(Targets(vm, u), u, accept, b)
  }

  /**
   * `setGame`: store the game, then hand it to each game observer; guess, error
   * and the lists stay. The game is stored before any observer runs, so it stays
   * stored when an observer throws; the exception then leaves `setGame`.
   */
  function SetGame(vm: SyncViewModel, g: Option<Game>, accept: Delivery<Update> -> Option<Kind>): (r: (SyncViewModel, Broadcasted<Update>))
    ensures r.0.game == g && r.0.guess == vm.guess && r.0.error == vm.error
    ensures r.0.gameObservers == vm.gameObservers && r.0.guessObservers == vm.guessObservers
    ensures r.0.errorObservers == vm.errorObservers
    ensures ReachesOwnList(vm, GameUpdate(g), accept, r.1)
  {
    (vm.(game := g), BroadcastUntil(vm.gameObservers, GameUpdate(g), accept))
  }

  /** `setGuess`: store the guess, then hand it to each guess observer until one throws. */
  function SetGuess(vm: SyncViewModel, g: Option<Guess>, accept: Delivery<Update> -> Option<Kind>): (r: (SyncViewModel, Broadcasted<Update>))
    ensures r.0.guess == g && r.0.game == vm.game && r.0.error == vm.error
    ensures r.0.gameObservers == vm.gameObservers && r.0.guessObservers == vm.guessObservers
    ensures r.0.errorObservers == vm.errorObservers
    ensures ReachesOwnList(vm, GuessUpdate(g), accept, r.1)
  {
    (vm.(guess := g), BroadcastUntil(vm.guessObservers, GuessUpdate(g), accept))
  }

  /** `setError`: store the error, then hand it to each error observer until one throws. */
  function SetError(vm: SyncViewModel, t: Option<Throwable>, accept: Delivery<Update> -> Option<Kind>): (r: (SyncViewModel, Broadcasted<Update>))
    ensures r.0.error == t && r.0.game == vm.game && r.0.guess == vm.guess
    ensures r.0.gameObservers == vm.gameObservers && r.0.guessObservers == vm.guessObservers
    ensures r.0.errorObservers == vm.errorObservers
    ensures ReachesOwnList(vm, ErrorUpdate(t), accept, r.1)
  {
    (vm.(error := t), BroadcastUntil(vm.errorObservers, ErrorUpdate(t), accept))
  }

  /**
   * Setting twice is setting the second value: the state after both calls is the
   * state after the second alone, whatever the observers do. When no game
   * observer throws, every one hears both values, the first value first.
   */
  lemma SetGameTwice(vm: SyncViewModel, g1: Option<Game>, g2: Option<Game>, accept: Delivery<Update> -> Option<Kind>)
    requires forall o :: accept(Delivery(o, GameUpdate(g1))).None? && accept(Delivery(o, GameUpdate(g2))).None?
    ensures SetGame(SetGame(vm, g1, accept).0, g2, accept).0 == SetGame(vm, g2, accept).0
    ensures SetGame(vm, g1, accept).1.thrown.None? && SetGame(SetGame(vm, g1, accept).0, g2, accept).1.thrown.None?
    ensures SetGame(vm, g1, accept).1.calls + SetGame(SetGame(vm, g1, accept).0, g2, accept).1.calls
      == Broadcast(vm.gameObservers, GameUpdate(g1)) + Broadcast(vm.gameObservers, GameUpdate(g2))
  {
    BroadcastUntilReturning(vm.gameObservers, GameUpdate(g1), accept);
    BroadcastUntilReturning(vm.gameObservers, GameUpdate(g2), accept);
  }
}

=== FILE: wrappers.dfy ===
/** The nullable-reference stand-in shared by every module of the model. */
module Wrappers {

  /** `None` plays the part of Java's `null`; `Some(v)` a present reference. */
  datatype Option<+T> = None | Some(value: T) {

    /** The value, or `default` when absent. */
    function GetOr(default: T): T {
      match this
      case Some(v) => v
      case None => default
    }
  }
}
